=== FILE: README.md ===
# JSON-RPC 2.0 message codec

A Dafny model of the core of the `System.Data.JsonRpc` library. The library
converts JSON-RPC 2.0 messages between JSON text and request/response records.
The model covers three parts:

- **`JsonRpcSerializer`.** It turns a parsed JSON tree into one request or
  response, or into a batch of them, and turns records back into trees. On the
  way it checks the protocol rules:
  - the `"jsonrpc": "2.0"` member;
  - the method name;
  - the identifier's type;
  - exactly one of `result` and `error`;
  - the shape of the error object.

  A failure confined to one message is captured in that message's slot. A
  generic error aborts the whole call. A batch with two messages carrying the
  same identifier is refused.
- **`JsonRpcId`.** A message identifier that is absent, an integer or a string.
  It has equality, an ordering, hashing, text rendering and narrowing casts.
- **`JsonRpcRequest`.** The public constructors and the `HasParams`,
  `IsNotification` and `IsSystem` predicates.

Modules, in dependency order:

| module | file | contents |
|---|---|---|
| `Wrappers` | wrappers.dfy | `Option`, `Result` |
| `Numerics` | numerics.dfy | 64/32-bit ranges, decimal rendering and parsing of integers |
| `JsonValues` | json.dfy | the JSON tree (`Null`, `Bool`, `Int`, `Str`, `Arr`, `Obj`) |
| `Ids` | ids.dfy | `JsonRpcId` |
| `Requests` | requests.dfy | `JsonRpcRequest` |
| `Protocol` | protocol.dfy | exception kinds, per-item slots, schema, bindings, responses |
| `Duplicates` | duplicates.dfy | duplicate-identifier tracking, eager and lazily allocated |
| `Batch` | batch.dfy | the batch decode and encode loops, generic in the message type |
| `Codec` | codec.dfy | one message: `ConvertTokenTo*` and `Convert*ToToken` |
| `Serializer` | serializer.dfy | the public `Deserialize*` and `Serialize*` operations |

Two parts of the environment are parameters of the model rather than code:

- **The JSON library's text layer.** `TextCodec.parse` stands for
  `JToken.ReadFrom` and `TextCodec.render` for `JToken.ToString`.
- **The CLR object projection.** `Converters.toObject` stands for
  `ToObject` and `Converters.fromObject` for `FromObject`. An object is
  represented by its JSON form, and `None` stands for a `JsonException`.

The round-trip lemmas state which properties of these parameters they rely on.
`JsonRpcSchema` and `IJsonRpcBindingsProvider` are records of maps. The
numeric values of the identifier-type enumeration are not modelled; `TagRank`
abstracts them, and every ordering property holds for any pairwise distinct
choice.

Where the source and its documentation disagree, the model follows the code:

- **Request decoding does not check the shape of `params`.** Any non-null
  value is projected. Only encoding requires an object or an array.
- **A request whose `"id"` is `null` is an invalid message, not a
  notification.** `JTokenType.Null` falls into the `default` case of the
  identifier switch.
- **A response `"id"` of any other JSON type leaves the identifier absent.**
  The response switch has no `default` case.
- **The request constructors refuse an empty method name with
  `ArgumentException`.** The test at
  `src/System.Data.JsonRpc.Tests/JsonRpcRequestTests.cs:83-88` expects an empty
  method name to be accepted. The model follows `JsonRpcRequest.cs`.

## Model

| member | source | states |
|---|---|---|
| `Numerics.CompareInts` | src/System.Data.JsonRpc/JsonRpcId.cs:65 | `CompareTo` on integers returns -1, 0 or 1 with the sign of the difference |
| `Numerics.IntDecimalRoundTrip` | src/System.Data.JsonRpc/JsonRpcId.cs:187 | the invariant decimal rendering of an integer is canonical (no leading zero, no "-0") and parses back to the integer |
| `Numerics.IntToDecimalInjective` | src/System.Data.JsonRpc/JsonRpcId.cs:187 | distinct integers render to distinct decimal texts |
| `Ids.Equals` | src/System.Data.JsonRpc/JsonRpcId.cs:97-118 | two identifiers are equal exactly when they have the same tag and equal payloads; two absent identifiers are equal |
| `Ids.EqualsObject` | src/System.Data.JsonRpc/JsonRpcId.cs:123-148 | equality against a raw string or long agrees with equality against the identifier built from it; any other object is unequal |
| `Ids.CompareOrdinalZero` | src/System.Data.JsonRpc/JsonRpcId.cs:76 | ordinal string comparison is zero exactly for equal strings |
| `Ids.CompareOrdinalAntisymmetric` | src/System.Data.JsonRpc/JsonRpcId.cs:76 | swapping the strings negates the ordinal comparison |
| `Ids.CompareOrdinalTransitive` | src/System.Data.JsonRpc/JsonRpcId.cs:76 | ordinal comparison is transitive |
| `Ids.CompareReflexive` | src/System.Data.JsonRpc/JsonRpcId.cs:63-92 | every identifier compares equal to itself |
| `Ids.CompareAntisymmetric` | src/System.Data.JsonRpc/JsonRpcId.cs:63-92 | swapping the operands of `CompareTo` negates the result |
| `Ids.CompareTransitive` | src/System.Data.JsonRpc/JsonRpcId.cs:63-92 | `CompareTo` is transitive, so with antisymmetry it is a total preorder |
| `Ids.CompareOrdersTagsFirst` | src/System.Data.JsonRpc/JsonRpcId.cs:65-70 | identifiers of different tags are ordered by their tags alone, whatever their payloads |
| `Ids.CompareZeroIffEquals` | src/System.Data.JsonRpc/JsonRpcId.cs:63-118 | `CompareTo` is zero exactly when `Equals` holds |
| `Ids.HashConsistentWithEquals` | src/System.Data.JsonRpc/JsonRpcId.cs:152-173 | equal identifiers have equal hash codes for any choice of the component hash functions |
| `Ids.ToString` | src/System.Data.JsonRpc/JsonRpcId.cs:177-199 | a string identifier renders verbatim, an absent one as "", and an integer as a canonical decimal text that parses back to it |
| `Ids.ToStringInjectiveOnNumbers` | src/System.Data.JsonRpc/JsonRpcId.cs:185-188 | distinct integer identifiers render differently |
| `Ids.ToLong` | src/System.Data.JsonRpc/JsonRpcId.cs:257-265 | the cast to long succeeds exactly for integer identifiers and returns the payload; otherwise `InvalidCastException` |
| `Ids.ToStr` | src/System.Data.JsonRpc/JsonRpcId.cs:244-252 | the cast to string succeeds exactly for string identifiers and returns the payload; otherwise `InvalidCastException` |
| `Ids.CastRoundTrip` | src/System.Data.JsonRpc/JsonRpcId.cs:244-265 | an identifier built from a value casts back to that value, and casting it to the other type, or casting an absent identifier, fails |
| `Requests.Create` | src/System.Data.JsonRpc/JsonRpcRequest.cs:20-104 | the constructors refuse an empty method (checked first) and null parameters; otherwise they keep the method, identifier and parameters given, and `HasParams` holds exactly for the overloads with parameters |
| `Requests.CreatedNotification` | src/System.Data.JsonRpc/JsonRpcRequest.cs:110 | a request built without an identifier is a notification; one built with a long or string identifier is not and casts back to it |
| `Requests.EmptyMethodRejected` | src/System.Data.JsonRpc/JsonRpcRequest.cs:24-25 | every overload refuses the empty method name with `ArgumentException` naming `method` |
| `Requests.IsSystemIff` | src/System.Data.JsonRpc/JsonRpcRequest.cs:113 | `IsSystem` holds exactly for the method names that are "rpc." followed by anything |
| `Requests.IsSystemExamples` | src/System.Data.JsonRpc/JsonRpcRequest.cs:113 | "rpc.m" is a system method; "m" and "rpc" are not |
| `Protocol.Promote` | src/System.Data.JsonRpc/JsonRpcSerializer.cs:82-92 | a decoded message fills its slot; a `JsonRpcException` of any kind but `GenericError` is captured in the slot; a generic error or any other exception aborts the call unchanged |
| `Duplicates.Track` | src/System.Data.JsonRpc/JsonRpcSerializer.cs:134-158 | adding an identifier to the set of its type fails exactly when it is already there; absent identifiers are not tracked |
| `Duplicates.TrackRecords` | src/System.Data.JsonRpc/JsonRpcSerializer.cs:134-158 | with the sets recording the identifiers so far, adding one fails exactly when it repeats a non-absent recorded identifier, and otherwise the sets record it too |
| `Duplicates.UniqueSnoc` | src/System.Data.JsonRpc/JsonRpcSerializer.cs:134-158 | a collision-free sequence stays collision-free after one more identifier exactly when that identifier is absent or new |
| `Duplicates.NotUniqueExtends` | src/System.Data.JsonRpc/JsonRpcSerializer.cs:134-158 | a collision in a prefix remains one in the whole batch |
| `Duplicates.TrackLazyAgrees` | src/System.Data.JsonRpc/JsonRpcSerializer.cs:134-158 | allocating a set only when `Count - i > 1` gives the same verdict as tracking every identifier, and keeps the two in agreement for later items |
| `Batch.Outcomes` | src/System.Data.JsonRpc/JsonRpcSerializer.cs:103-132 | one slot per array element, at the element's index: a non-object element is an "Item is not a message" slot, an object is decoded and promoted |
| `Batch.DecodeFromSpec` | src/System.Data.JsonRpc/JsonRpcSerializer.cs:107-161 | the decode loop from any point succeeds exactly when no later element is fatal and the identifiers so far plus the later ones do not collide, and it then appends exactly the later slots |
| `Batch.DecodeItemsSpec` | src/System.Data.JsonRpc/JsonRpcSerializer.cs:103-163 | batch decoding succeeds exactly when no element is fatal and no two decoded messages have colliding identifiers, and then returns the slots of the elements in order; when no element is fatal but identifiers collide, it fails with the `InvalidMessage` exception naming the identifier of one of its messages |
| `Batch.DecodeFrom` | src/System.Data.JsonRpc/JsonRpcSerializer.cs:107-161 | the decode loop from any element on, tracking every identifier: it fails only with a fatal item fault or with `InvalidMessage` |
| `Batch.DecodeItems` | src/System.Data.JsonRpc/JsonRpcSerializer.cs:103-163 | the loop over a whole batch, with nothing tracked yet: it fails only with a fatal item fault or with `InvalidMessage` |
| `Batch.DecodeFromFault` | src/System.Data.JsonRpc/JsonRpcSerializer.cs:107-161 | a failing decode loop fails with the fault of one element it had still to read: that element's own fatal fault, or the `InvalidMessage` exception naming its message's identifier, which was already in the sets or carried by a message of an earlier element |
| `Batch.MetBeforeWidens` | src/System.Data.JsonRpc/JsonRpcSerializer.cs:134-158 | an identifier met by the loop after one more element, with that element's identifier tracked, was met by the loop before it |
| `Batch.DecodeFirstFailure` | src/System.Data.JsonRpc/JsonRpcSerializer.cs:107-161 | the loop stops at the first element that is fatal or whose message repeats an identifier met before, every element before it being captured with no repeat; it fails with that element's own fault, or with the `InvalidMessage` exception naming the repeated identifier |
| `Batch.DecodeItemsFirstFailure` | src/System.Data.JsonRpc/JsonRpcSerializer.cs:103-163 | over a whole batch, the first element that is fatal or repeats an identifier gives the call's fault |
| `Batch.DecodeDuplicateRefused` | src/System.Data.JsonRpc/JsonRpcSerializer.cs:134-158 | a batch with no fatal element that still fails is refused with the `InvalidMessage` repeated-identifier exception naming the identifier of one of its messages |
| `Batch.DecodeBatchLazy` | src/System.Data.JsonRpc/JsonRpcSerializer.cs:103-163 | the decode loop as written, with lazily allocated identifier sets, returns what the track-every-identifier reference returns |
| `Batch.DecodeData` | src/System.Data.JsonRpc/JsonRpcSerializer.cs:75-167 | an object is one promoted message and fails with its own fatal fault; an empty array fails with "The batch is empty" and any other non-object, non-array tree with "Invalid message"; a non-empty array gives one slot per element exactly when nothing is fatal and no identifier repeats, and otherwise fails with the fault of the first element that is fatal or repeats an identifier (the repeat as `InvalidMessage`) |
| `Batch.EncodeFromSpec` | src/System.Data.JsonRpc/JsonRpcSerializer.cs:320-369 | the encode loop from any point succeeds exactly when every later item is present and converts and the identifiers do not collide, and it then appends the later trees in order |
| `Batch.EncodeItemsSpec` | src/System.Data.JsonRpc/JsonRpcSerializer.cs:316-370 | batch encoding succeeds exactly when every item is present and converts and no identifiers collide, and then yields one tree per item in input order; when every item converts but identifiers collide, it fails with the `GenericError` exception naming one item's identifier |
| `Batch.Encoded` | src/System.Data.JsonRpc/JsonRpcSerializer.cs:354-370 | the trees of items that all convert, one per item at the item's index; a specification helper for the encode loop |
| `Batch.EncodeFromFault` | src/System.Data.JsonRpc/JsonRpcSerializer.cs:320-369 | a failing encode loop fails with the fault of one item it had still to write: a null item's position, the `GenericError` exception naming a present item's identifier, which was already in the sets or carried by an earlier item, or its conversion's own fault |
| `Batch.EncodeFirstNull` | src/System.Data.JsonRpc/JsonRpcSerializer.cs:320-369 | when every item before the first null one is present, converts and has a fresh identifier, the call fails with the `GenericError` "The batch item at position k is not a message" for that null item's position |
| `Batch.EncodeDuplicateRefused` | src/System.Data.JsonRpc/JsonRpcSerializer.cs:326-349 | a collection whose items all convert and which still fails is refused with the `GenericError` repeated-identifier exception naming one item's identifier |
| `Batch.EncodeBatchLazy` | src/System.Data.JsonRpc/JsonRpcSerializer.cs:316-370 | the encode loop as written, with lazily allocated identifier sets, returns what the reference returns |
| `Batch.MessageIdsOfMessages` | src/System.Data.JsonRpc/JsonRpcSerializer.cs:134-158 | in a batch where every item decoded to a message, the identifiers checked on decoding are those checked on encoding |
| `Batch.DecodeEncoded` | src/System.Data.JsonRpc/JsonRpcSerializer.cs:103-163 | when each item's tree decodes back to the item, the encoded trees decode without fault to one message per item |
| `Batch.DecodeDataOfEncoded` | src/System.Data.JsonRpc/JsonRpcSerializer.cs:96-163 | a non-empty, collision-free collection whose items decode back from their trees is read back as a batch holding every item in order |
| `Codec.Project` | src/System.Data.JsonRpc/JsonRpcSerializer.cs:827-839 | projection to an object fails only as "CLR object construction error", a generic error |
| `Codec.Unproject` | src/System.Data.JsonRpc/JsonRpcSerializer.cs:842-854 | projection to a tree fails only as "CLR object deconstruction error", a generic error |
| `Codec.CheckProtocol` | src/System.Data.JsonRpc/JsonRpcSerializer.cs:474-479 | the protocol checks pass exactly when `jsonrpc` is present and equal to the string "2.0", and fail with `InvalidMessage` otherwise |
| `Codec.TypeFor` | src/System.Data.JsonRpc/JsonRpcSerializer.cs:518-527 | a type lookup succeeds exactly when the method has a non-null binding, and otherwise fails with `GenericError` |
| `Codec.RequestId` | src/System.Data.JsonRpc/JsonRpcSerializer.cs:497-515 | a missing request identifier is absent; an integer or a string is read as that identifier; any other type, `null` included, is `InvalidMessage` |
| `Codec.ResponseId` | src/System.Data.JsonRpc/JsonRpcSerializer.cs:585-607 | a response identifier is read when it is an integer or a string, and is absent otherwise |
| `Codec.DecodeRequest` | src/System.Data.JsonRpc/JsonRpcSerializer.cs:469-536 | a request object decodes exactly when it has the protocol member, a non-empty supported string method, an integer or string or missing identifier, and, for non-null parameters, a non-null binding that projects; `InvalidMethod` is raised exactly for a well-formed but unsupported method; a bad protocol member, a missing, non-string or empty method, and an identifier of another type are `InvalidMessage`; a missing or null parameter binding and a failed projection are `GenericError`; the parameters returned are the projected object; a missing schema is a generic error |
| `Codec.EncodeRequest` | src/System.Data.JsonRpc/JsonRpcSerializer.cs:538-569 | the request object carries `jsonrpc` "2.0" and the method, carries `params` exactly when the request has parameters (which must project to an object or an array, else a generic error), and carries `id` exactly when the request is not a notification |
| `Codec.RequestRoundTrip` | src/System.Data.JsonRpc/JsonRpcSerializer.cs:469-569 | a request with a supported method whose parameters survive the projection both ways is decoded back from its encoding unchanged |
| `Codec.MethodFor` | src/System.Data.JsonRpc/JsonRpcSerializer.cs:619-650 | the method of a response is found exactly when its identifier has a non-null binding; a missing or null binding is a generic error; an absent identifier leads to an exception that is not a `JsonRpcException` |
| `Codec.ResultTypeFor` | src/System.Data.JsonRpc/JsonRpcSerializer.cs:619-661 | the result type is the non-null result binding of the method bound to the identifier |
| `Codec.DataTypeFor` | src/System.Data.JsonRpc/JsonRpcSerializer.cs:690-755 | error data under an absent identifier uses the generic binding; otherwise the error-data binding of the bound method; a missing binding is a generic error |
| `Codec.DecodeError` | src/System.Data.JsonRpc/JsonRpcSerializer.cs:670-757 | the error member must be an object with an integer code and a string message, else `InvalidMessage`; without data it then succeeds with the code and message read; data present and not `null` is projected to the type `DataTypeFor` resolves (the generic binding under an absent identifier), and that step fails only with `GenericError` |
| `Codec.DecodeResult` | src/System.Data.JsonRpc/JsonRpcSerializer.cs:617-664 | a result is projected to the result type of the method bound to the identifier; it decodes exactly when that type resolves and the projection succeeds; an absent identifier aborts with an exception that is not a `JsonRpcException`; any other failure is `GenericError` |
| `Codec.DecodeMembers` | src/System.Data.JsonRpc/JsonRpcSerializer.cs:585-757 | exactly one of `result` and `error` is required, else `InvalidMessage`; the identifier is kept; a result response holds the decoded result and fails exactly as the result's decoding does; an error response holds the decoded error object and fails exactly as its decoding does |
| `Codec.DecodeResponse` | src/System.Data.JsonRpc/JsonRpcSerializer.cs:571-760 | a response needs a schema and the protocol member (else a generic error or `InvalidMessage`), after which it is decoded by its members; with a result, it succeeds exactly when the result type resolves and the result projects; it never raises `ParseError` or `InvalidMethod` |
| `Codec.EncodeError` | src/System.Data.JsonRpc/JsonRpcSerializer.cs:775-784 | the error object carries the code and the message, and `data` exactly when the error has data |
| `Codec.EncodeResponse` | src/System.Data.JsonRpc/JsonRpcSerializer.cs:762-803 | the response object always carries `id` (`null` when absent), carries `result` when the response has one and otherwise `error` holding the encoded error object; it is built exactly when that payload converts, and cannot be built when neither is set |
| `Codec.ErrorRoundTrip` | src/System.Data.JsonRpc/JsonRpcSerializer.cs:667-784 | an error object whose data survives the projection both ways is decoded back from its encoding |
| `Codec.ResponseRoundTrip` | src/System.Data.JsonRpc/JsonRpcSerializer.cs:571-803 | a response with exactly one of result and error, whose payload survives the projection both ways under its bindings, is decoded back from its encoding unchanged |
| `Serializer.Render` | src/System.Data.JsonRpc/JsonRpcSerializer.cs:857-869 | rendering fails only as "JSON string composition error", a generic error |
| `Serializer.DecodeDataDelivers` | src/System.Data.JsonRpc/JsonRpcSerializer.cs:75-167 | whatever decoding returns is a single slot or a non-empty batch with no colliding identifiers, and no captured failure is a generic error |
| `Serializer.DeserializeRequestsData` | src/System.Data.JsonRpc/JsonRpcSerializer.cs:68-168 | the call fails with `ParseError` exactly when the text does not parse; a parsed tree is decoded as `Batch.DecodeData` decodes it, so a result is never empty and satisfies the batch guarantees; without a schema, an object fails with a generic error |
| `Serializer.DeserializeResponsesData` | src/System.Data.JsonRpc/JsonRpcSerializer.cs:176-283 | the empty text is the empty result, without parsing, and is the only way to get it; otherwise a parsed tree is decoded as `Batch.DecodeData` decodes it, as for requests |
| `Serializer.SerializeRequest` | src/System.Data.JsonRpc/JsonRpcSerializer.cs:290-299 | a single request is its object rendered; every failure is a generic error |
| `Serializer.SerializeResponse` | src/System.Data.JsonRpc/JsonRpcSerializer.cs:377-391 | a single response is its object rendered; every failure is a generic error, except that a response with neither result nor error, and only such a response, aborts with an exception that is not a `JsonRpcException` |
| `Serializer.SerializeRequests` | src/System.Data.JsonRpc/JsonRpcSerializer.cs:306-375 | an empty collection is a generic error; otherwise the call succeeds exactly when every item is present and converts and no identifiers collide, and renders the items' trees in input order; every failure is a generic error |
| `Serializer.RequestFaultsGeneric` | src/System.Data.JsonRpc/JsonRpcSerializer.cs:320-354 | every fault of encoding a collection of requests is a generic error: a null item, a repeated identifier or a failed conversion |
| `Serializer.SerializeResponses` | src/System.Data.JsonRpc/JsonRpcSerializer.cs:398-467 | an empty collection gives the empty text; otherwise as for requests, except that a fault which is not a generic error arises only when some response has neither result nor error |
| `Serializer.ResponseFaultsGeneric` | src/System.Data.JsonRpc/JsonRpcSerializer.cs:412-446 | every fault of encoding a collection of responses is a generic error (a null item, a repeated identifier, a failed conversion), except the fault of a response with neither result nor error, and a non-generic fault implies such a response is in the collection |
| `Serializer.RequestsInvert` | src/System.Data.JsonRpc/JsonRpcSerializer.cs:469-569 | each request of a collection that survives its own round trip encodes to an object that decodes back to it |
| `Serializer.RequestsRoundTrip` | src/System.Data.JsonRpc/JsonRpcSerializer.cs:68-375 | a non-empty collision-free collection of round-tripping requests, serialized and read back through a faithful text layer, is a batch of exactly those requests in order |
| `Serializer.ResponseTextRoundTrip` | src/System.Data.JsonRpc/JsonRpcSerializer.cs:176-391 | a round-tripping response, serialized and read back, is a single message holding that response |
| `Serializer.DuplicateRequestIdsRejected` | src/System.Data.JsonRpc/JsonRpcSerializer.cs:134-145 | a batch of two requests with identifier 1 is refused with `InvalidMessage` naming "1" |
| `Serializer.RepeatedNotificationsAccepted` | src/System.Data.JsonRpc/JsonRpcSerializer.cs:134-163 | two notifications in one batch do not collide and are both delivered |
| `Serializer.NotificationDecodes` | src/System.Data.JsonRpc/JsonRpcSerializer.cs:497-535 | a request object without an identifier decodes to a notification |
| `Serializer.NullRequestIdCaptured` | src/System.Data.JsonRpc/JsonRpcSerializer.cs:497-515 | a request with `"id": null` is captured as an invalid message, not read as a notification |
| `Serializer.NullResultNotReserialized` | src/System.Data.JsonRpc/JsonRpcSerializer.cs:617-803 | a `"result": null` that projects to a null object decodes to a response with neither result nor error, which cannot be serialized again |

## Left out

- Floating-point identifiers: the `Float` tag of `JsonRpcId`, its constructor,
  cast, `"0.0###############"` rendering, and double equality, ordering and
  hashing. `Equals(object)` against a boxed double is left out with them. The
  serializer revision modelled here has no floating-point identifiers.
- Concrete hash values. `Ids.HashCode` takes the component hash functions as
  parameters, because string hashing is randomized per process. Only
  consistency with equality is stated.
- The JSON text parser and renderer (`ConvertStringToToken`,
  `ConvertTokenToString`). They are the `TextCodec` parameter.
- JSON floats. They do not appear in the tree, so inputs such as `"id": 1.5`
  (which the request decoder refuses as `InvalidMessage`) or a float error
  `code` cannot be written in the model.
- JSON dates and the other non-string scalar token types of the JSON library
  (`Date`, `Guid`, `Uri`, `TimeSpan`, `Bytes`). The default reader parses an
  ISO-8601-like string such as "2020-01-01T00:00:00" as a `Date` token, which
  the source refuses as a request `"id"`, `"method"` or error `"message"` and
  leaves absent as a response `"id"`. The model reads every such string as
  `Str`, so the `Faithful` assumption of `Serializer.RequestsRoundTrip` and
  `Serializer.ResponseTextRoundTrip` does not hold for the real reader on such
  strings, and a `Text` identifier of that shape is not covered by them.
- Member order. `Obj` holds a map, so the order in which the encoders write
  `jsonrpc`, `method`, `id` and `params` (or `result` / `error`), which
  `JObject` keeps in the rendered text, is not modelled.
- JSON integers outside the 64-bit range. The tree's integers are `Int64`.
  The source's `(long)` cast of a wider integer throws an overflow exception,
  and that path is not modelled.
- The CLR reflection projection (`ToObject` / `FromObject`). It is the
  `Converters` parameter.
- The serializer constructors, settings, converter array, array pool and
  schema cloning. This is configuration plumbing; a serializer is a schema
  (or none) and a projection.
- Every `ArgumentNullException` check on a null argument (text, bindings,
  request, response, method name, collection). Dafny values are never null.
  A null item inside a collection is modelled, as `None`.
- `ParamsType` and the static `IsSystemMethod`. Their implementations are not
  part of the source modelled here.
- Requests.Create: does not model the identifier validation done by the
  `JsonRpcMessage` base constructors it chains to, because `JsonRpcMessage.cs`
  is not part of this model. In particular the documented `ArgumentException`
  for an empty string identifier is not raised: `Create` accepts `Text("")`.
- `Ids.CompareOrdinal` compares `char` values, i.e. code points. The source
  compares UTF-16 code units; the two agree on the Basic Multilingual Plane.
- `Codec.MethodFor`: for a result under an absent identifier, the source looks
  up a null method name in `_schema.ResultTypeBindings`
  (JsonRpcSerializer.cs:654), whose null-key behaviour is not modelled. The model only
  states that the call aborts with an exception that is not a
  `JsonRpcException`, and leaves the exception unspecified.

=== FILE: batch.dfy ===
/** The batch algorithms shared by requests and responses: decoding a JSON
    array item by item with per-item failure capture and whole-batch
    duplicate detection, and encoding a collection of messages with the
    same duplicate rule. Messages are a type parameter; `decode`, `encode`
    and `idOf` are the per-message operations of the codec. */
module Batch {
  import opened Wrappers
  import opened Numerics
  import opened JsonValues
  import opened Ids
  import opened Protocol
  import opened Duplicates

  const NotAMessage: RpcException := RpcException(InvalidMessage, "Item is not a message")

  const EmptyBatch: Fault := Fail(InvalidMessage, "The batch is empty")

  /** The exception for a repeated identifier, of the kind the caller chose. */
  function DuplicateFault(kind: ErrorKind, id: Id): Fault {
    Fail(kind, "The batch contains messages with the same identifier: \"" + ToString(id) + "\"")
  }

  /** What one array element contributes: a non-object is an "Item is not a
      message" slot; an object is decoded and promoted. */
  function ItemOutcome<T>(elem: Json, decode: map<string, Json> -> Result<T, Fault>): Result<Slot<T>, Fault> {
    if elem.Obj? then Promote(decode(elem.fields)) else Ok(Failed(NotAMessage))
  }

  /** The identifier `id` was met before element `k` by a loop started at
      element `i` with the sets `seen`: it is in the sets already, or it
      collides with the identifier of a message decoded from an element in
      between. */
  predicate MetBefore<T>(elems: seq<Json>, decode: map<string, Json> -> Result<T, Fault>, idOf: T -> Id,
                         i: int, k: int, seen: Seen, id: Id)
    requires 0 <= i <= k <= |elems|
  {
    Contains(seen, id) ||
    exists j | i <= j < k ::
      ItemOutcome(elems[j], decode).Ok? && ItemOutcome(elems[j], decode).value.Message? &&
      Collide(idOf(ItemOutcome(elems[j], decode).value.msg), id)
  }

  /** The fault the element at `k` may abort a loop started at `i` with: its
      own fatal fault, or, for a decoded message whose identifier was met
      before, the repeated-identifier exception naming that identifier. */
  predicate DecodeFault<T>(elems: seq<Json>, decode: map<string, Json> -> Result<T, Fault>, idOf: T -> Id,
                           i: int, seen: Seen, k: int, f: Fault)
    requires 0 <= i <= k < |elems|
  {
    match ItemOutcome(elems[k], decode)
    case Err(g) => g == f
    case Ok(slot) =>
      slot.Message? && f == DuplicateFault(InvalidMessage, idOf(slot.msg)) &&
      MetBefore(elems, decode, idOf, i, k, seen, idOf(slot.msg))
  }

  /** The batch loop from item `i` on, with every identifier tracked from the
      start: the first fatal item fault or the first repeated identifier of a
      decoded message aborts the call; otherwise every element gets its slot. */
  function DecodeFrom<T>(elems: seq<Json>, decode: map<string, Json> -> Result<T, Fault>, idOf: T -> Id,
                         i: nat, seen: Seen, acc: seq<Slot<T>>): (r: Result<seq<Slot<T>>, Fault>)
    requires i <= |elems|
    ensures r.Err? ==> IsFatal(r.error) || FailsWith(r, InvalidMessage)
    decreases |elems| - i
  {
    if i == |elems| then Ok(acc)
    else
      match ItemOutcome(elems[i], decode)
      case Err(f) => Err(f)
      case Ok(slot) =>
        if slot.Failed? then DecodeFrom(elems, decode, idOf, i + 1, seen, acc + [slot])
        else
          match Track(seen, idOf(slot.msg))
          case None => Err(DuplicateFault(InvalidMessage, idOf(slot.msg)))
          case Some(seen') => DecodeFrom(elems, decode, idOf, i + 1, seen', acc + [slot])
  }

  function DecodeItems<T>(elems: seq<Json>, decode: map<string, Json> -> Result<T, Fault>, idOf: T -> Id)
    : (r: Result<seq<Slot<T>>, Fault>)
    ensures r.Err? ==> IsFatal(r.error) || FailsWith(r, InvalidMessage)
  {
    DecodeFrom(elems, decode, idOf, 0, NothingSeen, [])
  }

  /** No element's decoding is fatal. */
  predicate AllCaptured<T>(elems: seq<Json>, decode: map<string, Json> -> Result<T, Fault>) {
    forall k | 0 <= k < |elems| :: ItemOutcome(elems[k], decode).Ok?
  }

  /** The slots of the elements taken one by one, in order. */
  function Outcomes<T>(elems: seq<Json>, decode: map<string, Json> -> Result<T, Fault>): (slots: seq<Slot<T>>)
    requires AllCaptured(elems, decode)
    ensures |slots| == |elems|
    ensures forall k | 0 <= k < |elems| :: ItemOutcome(elems[k], decode) == Ok(slots[k])
  {
    if |elems| == 0 then []
    else [ItemOutcome(elems[0], decode).value] + Outcomes(elems[1..], decode)
  }

  /** The identifier a slot contributes to duplicate detection: that of its
      message, or none for a captured failure. */
  function SlotIds<T>(slot: Slot<T>, idOf: T -> Id): seq<Id> {
    if slot.Message? then [idOf(slot.msg)] else []
  }

  /** The identifiers of the decoded messages among the slots, in order. */
  function MessageIds<T>(slots: seq<Slot<T>>, idOf: T -> Id): seq<Id> {
    if |slots| == 0 then [] else SlotIds(slots[0], idOf) + MessageIds(slots[1..], idOf)
  }

  /** Splitting the first element off the remaining ones. */
  lemma ElementsCons<T>(elems: seq<Json>, decode: map<string, Json> -> Result<T, Fault>, idOf: T -> Id, i: nat)
    requires i < |elems|
    ensures AllCaptured(elems[i..], decode) <==>
              ItemOutcome(elems[i], decode).Ok? && AllCaptured(elems[i + 1..], decode)
    ensures AllCaptured(elems[i..], decode) ==>
              Outcomes(elems[i..], decode) == [ItemOutcome(elems[i], decode).value] + Outcomes(elems[i + 1..], decode)
    ensures AllCaptured(elems[i..], decode) ==>
              MessageIds(Outcomes(elems[i..], decode), idOf) ==
                SlotIds(ItemOutcome(elems[i], decode).value, idOf) + MessageIds(Outcomes(elems[i + 1..], decode), idOf)
  {
    var rest := elems[i + 1..];
    assert elems[i..][0] == elems[i];
    assert elems[i..][1..] == rest;
    if AllCaptured(elems[i..], decode) {
      forall k | 0 <= k < |rest|
        ensures ItemOutcome(rest[k], decode).Ok?
      {
        assert rest[k] == elems[i..][k + 1];
      }
      var slots := Outcomes(elems[i..], decode);
      assert slots[0] == ItemOutcome(elems[i], decode).value;
      assert slots[1..] == Outcomes(rest, decode);
    } else if ItemOutcome(elems[i], decode).Ok? {
      var k :| 0 <= k < |elems[i..]| && !ItemOutcome(elems[i..][k], decode).Ok?;
      assert k > 0 && elems[i..][k] == rest[k - 1];
    }
  }

  /** The decode loop from element `i` on, with the sets recording the
      identifiers `ids` met so far: it succeeds exactly when no later element
      is fatal and `ids` followed by the later messages' identifiers is
      collision-free, and it then appends exactly the later slots. */
  lemma {:induction false} DecodeFromSpec<T>(elems: seq<Json>, decode: map<string, Json> -> Result<T, Fault>,
                                             idOf: T -> Id, i: nat, seen: Seen, ids: seq<Id>, acc: seq<Slot<T>>)
    requires i <= |elems|
    requires Records(seen, ids) && Unique(ids)
    ensures DecodeFrom(elems, decode, idOf, i, seen, acc).Ok? <==>
              AllCaptured(elems[i..], decode) && Unique(ids + MessageIds(Outcomes(elems[i..], decode), idOf))
    ensures DecodeFrom(elems, decode, idOf, i, seen, acc).Ok? ==>
              AllCaptured(elems[i..], decode) &&
              DecodeFrom(elems, decode, idOf, i, seen, acc).value == acc + Outcomes(elems[i..], decode)
    decreases |elems| - i, 2
  {
    if i == |elems| {
      assert elems[i..] == [];
      assert ids + [] == ids;
      assert acc + [] == acc;
    } else if ItemOutcome(elems[i], decode).Ok? {
      DecodeCapturedStep(elems, decode, idOf, i, seen, ids, acc);
    } else {
      ElementsCons(elems, decode, idOf, i);
    }
  }

  /** The step of `DecodeFromSpec` for a captured element, with the later
      elements' verdict joined back to the whole suffix. */
  lemma {:induction false} DecodeCapturedStep<T>(elems: seq<Json>, decode: map<string, Json> -> Result<T, Fault>,
                                                 idOf: T -> Id, i: nat, seen: Seen, ids: seq<Id>, acc: seq<Slot<T>>)
    requires i < |elems| && ItemOutcome(elems[i], decode).Ok?
    requires Records(seen, ids) && Unique(ids)
    ensures DecodeFrom(elems, decode, idOf, i, seen, acc).Ok? <==>
              AllCaptured(elems[i..], decode) && Unique(ids + MessageIds(Outcomes(elems[i..], decode), idOf))
    ensures DecodeFrom(elems, decode, idOf, i, seen, acc).Ok? ==>
              AllCaptured(elems[i..], decode) &&
              DecodeFrom(elems, decode, idOf, i, seen, acc).value == acc + Outcomes(elems[i..], decode)
    decreases |elems| - i, 1
  {
    ElementsCons(elems, decode, idOf, i);
    var slot := ItemOutcome(elems[i], decode).value;
    var rest := elems[i + 1..];
    DecodeStep(elems, decode, idOf, i, seen, ids, acc);
    assert AllCaptured(elems[i..], decode) <==> AllCaptured(rest, decode);
    if AllCaptured(rest, decode) {
      var later := MessageIds(Outcomes(rest, decode), idOf);
      var whole := MessageIds(Outcomes(elems[i..], decode), idOf);
      assert whole == SlotIds(slot, idOf) + later;
      assert ids + whole == ids + SlotIds(slot, idOf) + later;
      assert acc + Outcomes(elems[i..], decode) == acc + [slot] + Outcomes(rest, decode);
    }
  }

  /** One step of `DecodeFromSpec`, stated over the elements after `i` only. */
  lemma {:induction false} DecodeStep<T>(elems: seq<Json>, decode: map<string, Json> -> Result<T, Fault>,
                                         idOf: T -> Id, i: nat, seen: Seen, ids: seq<Id>, acc: seq<Slot<T>>)
    requires i < |elems| && ItemOutcome(elems[i], decode).Ok?
    requires Records(seen, ids) && Unique(ids)
    ensures var slot := ItemOutcome(elems[i], decode).value;
            DecodeFrom(elems, decode, idOf, i, seen, acc).Ok? <==>
              AllCaptured(elems[i + 1..], decode) &&
              Unique(ids + SlotIds(slot, idOf) + MessageIds(Outcomes(elems[i + 1..], decode), idOf))
    ensures var slot := ItemOutcome(elems[i], decode).value;
            DecodeFrom(elems, decode, idOf, i, seen, acc).Ok? ==>
              AllCaptured(elems[i + 1..], decode) &&
              DecodeFrom(elems, decode, idOf, i, seen, acc).value == acc + [slot] + Outcomes(elems[i + 1..], decode)
    decreases |elems| - i, 0
  {
    var slot := ItemOutcome(elems[i], decode).value;
    var acc' := acc + [slot];
    if slot.Failed? {
      assert ids + SlotIds(slot, idOf) == ids;
      DecodeFromSpec(elems, decode, idOf, i + 1, seen, ids, acc');
    } else {
      var id := idOf(slot.msg);
      assert SlotIds(slot, idOf) == [id];
      TrackRecords(seen, ids, id);
      UniqueSnoc(ids, id);
      if Track(seen, id).Some? {
        DecodeFromSpec(elems, decode, idOf, i + 1, Track(seen, id).value, ids + [id], acc');
      } else if AllCaptured(elems[i + 1..], decode) {
        NotUniqueExtends(ids + [id], MessageIds(Outcomes(elems[i + 1..], decode), idOf));
      }
    }
  }

  /** A failing decode loop fails with the fault of one of the elements it
      had still to read: that element's fatal fault, or the exception naming
      the identifier of its message, met before. */
  lemma {:induction false} DecodeFromFault<T>(elems: seq<Json>, decode: map<string, Json> -> Result<T, Fault>,
                                              idOf: T -> Id, i: nat, seen: Seen, acc: seq<Slot<T>>)
    requires i <= |elems| && DecodeFrom(elems, decode, idOf, i, seen, acc).Err?
    ensures exists k | i <= k < |elems| ::
              DecodeFault(elems, decode, idOf, i, seen, k, DecodeFrom(elems, decode, idOf, i, seen, acc).error)
    decreases |elems| - i
  {
    var f := DecodeFrom(elems, decode, idOf, i, seen, acc).error;
    var out := ItemOutcome(elems[i], decode);
    if out.Err? || (out.value.Message? && Track(seen, idOf(out.value.msg)).None?) {
      assert DecodeFault(elems, decode, idOf, i, seen, i, f);
    } else {
      var seen' := if out.value.Failed? then seen else Track(seen, idOf(out.value.msg)).value;
      DecodeFromFault(elems, decode, idOf, i + 1, seen', acc + [out.value]);
      var k :| i + 1 <= k < |elems| && DecodeFault(elems, decode, idOf, i + 1, seen', k, f);
      if ItemOutcome(elems[k], decode).Ok? {
        var id := idOf(ItemOutcome(elems[k], decode).value.msg);
        MetBeforeWidens(elems, decode, idOf, i, k, seen, seen', id);
      }
      assert DecodeFault(elems, decode, idOf, i, seen, k, f);
    }
  }

  /** What the loop met from element `i + 1` on, it met from element `i` on. */
  lemma MetBeforeWidens<T>(elems: seq<Json>, decode: map<string, Json> -> Result<T, Fault>, idOf: T -> Id,
                           i: nat, k: nat, seen: Seen, seen': Seen, id: Id)
    requires i < k <= |elems| && ItemOutcome(elems[i], decode).Ok?
    requires var slot := ItemOutcome(elems[i], decode).value;
             slot.Message? ==> Track(seen, idOf(slot.msg)).Some?
    requires var slot := ItemOutcome(elems[i], decode).value;
             seen' == if slot.Failed? then seen else Track(seen, idOf(slot.msg)).value
    requires MetBefore(elems, decode, idOf, i + 1, k, seen', id)
    ensures MetBefore(elems, decode, idOf, i, k, seen, id)
  {
    if Contains(seen', id) && !Contains(seen, id) {
      assert ItemOutcome(elems[i], decode).value.Message?;
      assert Collide(idOf(ItemOutcome(elems[i], decode).value.msg), id);
    }
  }

  /** The element at `k` is where a loop started at element `i`, with the
      identifiers `ids` met so far, stops: every element before it is
      captured and their messages repeat no identifier, and it is either
      fatal or a message whose identifier repeats one met before. */
  predicate StopsAt<T>(elems: seq<Json>, decode: map<string, Json> -> Result<T, Fault>, idOf: T -> Id,
                       i: int, ids: seq<Id>, k: int)
    requires 0 <= i <= k < |elems|
  {
    && AllCaptured(elems[i..k], decode)
    && Unique(ids + MessageIds(Outcomes(elems[i..k], decode), idOf))
    && match ItemOutcome(elems[k], decode)
       case Err(_) => true
       case Ok(slot) =>
         slot.Message? && !Unique(ids + MessageIds(Outcomes(elems[i..k], decode), idOf) + [idOf(slot.msg)])
  }

  /** The fault a loop stopping at `elem` fails with: the element's own fatal
      fault, or the invalid-message exception naming its repeated identifier. */
  function StopFault<T>(elem: Json, decode: map<string, Json> -> Result<T, Fault>, idOf: T -> Id): Fault
    requires ItemOutcome(elem, decode).Ok? ==> ItemOutcome(elem, decode).value.Message?
  {
    match ItemOutcome(elem, decode)
    case Err(f) => f
    case Ok(slot) => DuplicateFault(InvalidMessage, idOf(slot.msg))
  }

  /** The element where the loop stops decides the outcome: the call fails
      with that element's fatal fault or with the exception naming its
      repeated identifier. */
  lemma {:induction false} DecodeFirstFailure<T>(elems: seq<Json>, decode: map<string, Json> -> Result<T, Fault>,
                                                 idOf: T -> Id, i: nat, seen: Seen, ids: seq<Id>,
                                                 acc: seq<Slot<T>>, k: nat)
    requires i <= k < |elems| && StopsAt(elems, decode, idOf, i, ids, k)
    requires Records(seen, ids) && Unique(ids)
    ensures DecodeFrom(elems, decode, idOf, i, seen, acc) == Err(StopFault(elems[k], decode, idOf))
    decreases k - i
  {
    if i == k {
      assert elems[i..k] == [];
      assert ids + MessageIds(Outcomes(elems[i..k], decode), idOf) == ids;
      DecodeStopsHere(elems, decode, idOf, i, seen, ids, acc);
    } else {
      var pre := elems[..k];
      ElementsCons(pre, decode, idOf, i);
      assert pre[i..] == elems[i..k] && pre[i + 1..] == elems[i + 1..k];
      assert pre[i] == elems[i];
      var slot := ItemOutcome(elems[i], decode).value;
      var later := MessageIds(Outcomes(elems[i + 1..k], decode), idOf);
      if slot.Failed? {
        assert ids + MessageIds(Outcomes(elems[i..k], decode), idOf) == ids + later;
        DecodeFirstFailure(elems, decode, idOf, i + 1, seen, ids, acc + [slot], k);
      } else {
        var id := idOf(slot.msg);
        TrackRecords(seen, ids, id);
        UniqueSnoc(ids, id);
        assert ids + MessageIds(Outcomes(elems[i..k], decode), idOf) == (ids + [id]) + later;
        if !Unique(ids + [id]) {
          NotUniqueExtends(ids + [id], later);
        }
        DecodeFirstFailure(elems, decode, idOf, i + 1, Track(seen, id).value, ids + [id], acc + [slot], k);
      }
    }
  }

  /** Decoding a non-empty batch succeeds exactly when no element's decoding
      is fatal and no two decoded messages carry colliding identifiers; it
      then returns one slot per element, in the elements' order. */
  lemma DecodeItemsSpec<T>(elems: seq<Json>, decode: map<string, Json> -> Result<T, Fault>, idOf: T -> Id)
    ensures DecodeItems(elems, decode, idOf).Ok? <==>
              AllCaptured(elems, decode) && Unique(MessageIds(Outcomes(elems, decode), idOf))
    ensures DecodeItems(elems, decode, idOf).Ok? ==>
              AllCaptured(elems, decode) && DecodeItems(elems, decode, idOf).value == Outcomes(elems, decode)
    ensures AllCaptured(elems, decode) && !Unique(MessageIds(Outcomes(elems, decode), idOf)) ==>
              exists k | 0 <= k < |elems| ::
                Outcomes(elems, decode)[k].Message? &&
                DecodeItems(elems, decode, idOf) == Err(DuplicateFault(InvalidMessage, idOf(Outcomes(elems, decode)[k].msg)))
  {
    NothingSeenRecordsNothing();
    assert elems[0..] == elems;
    if AllCaptured(elems, decode) {
      assert [] + Outcomes(elems, decode) == Outcomes(elems, decode);
      assert [] + MessageIds(Outcomes(elems, decode), idOf) == MessageIds(Outcomes(elems, decode), idOf);
    }
    DecodeFromSpec(elems, decode, idOf, 0, NothingSeen, [], []);
    if AllCaptured(elems, decode) && !Unique(MessageIds(Outcomes(elems, decode), idOf)) {
      DecodeDuplicateRefused(elems, decode, idOf);
    }
  }

  /** A batch in which no element is fatal but identifiers collide is refused
      with the repeated-identifier exception, an invalid message, naming the
      identifier of one of its messages. */
  lemma DecodeDuplicateRefused<T>(elems: seq<Json>, decode: map<string, Json> -> Result<T, Fault>, idOf: T -> Id)
    requires AllCaptured(elems, decode) && DecodeItems(elems, decode, idOf).Err?
    ensures exists k | 0 <= k < |elems| ::
              Outcomes(elems, decode)[k].Message? &&
              DecodeItems(elems, decode, idOf) == Err(DuplicateFault(InvalidMessage, idOf(Outcomes(elems, decode)[k].msg)))
  {
    DecodeFromFault(elems, decode, idOf, 0, NothingSeen, []);
    var k :| 0 <= k < |elems| && DecodeFault(elems, decode, idOf, 0, NothingSeen, k, DecodeItems(elems, decode, idOf).error);
    assert ItemOutcome(elems[k], decode) == Ok(Outcomes(elems, decode)[k]);
  }

  /** The loop stops at the element it is about to read when that element is
      fatal or its message repeats a recorded identifier. */
  lemma DecodeStopsHere<T>(elems: seq<Json>, decode: map<string, Json> -> Result<T, Fault>, idOf: T -> Id,
                           i: nat, seen: Seen, ids: seq<Id>, acc: seq<Slot<T>>)
    requires i < |elems| && Records(seen, ids) && Unique(ids)
    requires ItemOutcome(elems[i], decode).Ok? ==>
               ItemOutcome(elems[i], decode).value.Message? &&
               !Unique(ids + [idOf(ItemOutcome(elems[i], decode).value.msg)])
    ensures DecodeFrom(elems, decode, idOf, i, seen, acc) == Err(StopFault(elems[i], decode, idOf))
  {
    var out := ItemOutcome(elems[i], decode);
    if out.Ok? {
      TrackRecords(seen, ids, idOf(out.value.msg));
      UniqueSnoc(ids, idOf(out.value.msg));
    }
  }

  /** Over a whole batch: the element where the loop stops, being fatal or
      repeating an identifier with nothing failing before it, gives the
      call's fault. */
  lemma DecodeItemsFirstFailure<T>(elems: seq<Json>, decode: map<string, Json> -> Result<T, Fault>, idOf: T -> Id)
    ensures forall k | 0 <= k < |elems| && StopsAt(elems, decode, idOf, 0, [], k) ::
              DecodeItems(elems, decode, idOf) == Err(StopFault(elems[k], decode, idOf))
  {
    forall k | 0 <= k < |elems| && StopsAt(elems, decode, idOf, 0, [], k)
      ensures DecodeItems(elems, decode, idOf) == Err(StopFault(elems[k], decode, idOf))
    {
      NothingSeenRecordsNothing();
      DecodeFirstFailure(elems, decode, idOf, 0, NothingSeen, [], [], k);
    }
  }

  /** The serializer's decode loop as written: the slots are filled in order
      and the identifier sets are allocated only once an identifier of their
      type can still repeat. It agrees with the track-everything reference. */
  method DecodeBatchLazy<T>(elems: seq<Json>, decode: map<string, Json> -> Result<T, Fault>, idOf: T -> Id)
    returns (r: Result<seq<Slot<T>>, Fault>)
    ensures r == DecodeItems(elems, decode, idOf)
  {
    var items: seq<Slot<T>> := [];
    var lazy := Unallocated;
    ghost var seen := NothingSeen;
    var i := 0;
    while i < |elems|
      invariant 0 <= i <= |elems|
      invariant Agrees(lazy, seen, |elems| - i)
      invariant DecodeFrom(elems, decode, idOf, i, seen, items) == DecodeItems(elems, decode, idOf)
    {
      var outcome := ItemOutcome(elems[i], decode);
      if outcome.Err? {
        return Err(outcome.error);
      }
      var slot := outcome.value;
      if slot.Message? {
        var id := idOf(slot.msg);
        TrackLazyAgrees(lazy, seen, id, |elems| - i);
        var next := TrackLazy(lazy, id, |elems| - i);
        if next.None? {
          return Err(DuplicateFault(InvalidMessage, id));
        }
        lazy := next.value;
        seen := Track(seen, id).value;
      }
      items := items + [slot];
      i := i + 1;
    }
    return Ok(items);
  }

  /** The whole-call dispatch on the parsed tree: an object is one message, a
      non-empty array is a batch, and anything else is an invalid message. */
  function DecodeData<T>(root: Json, decode: map<string, Json> -> Result<T, Fault>, idOf: T -> Id)
    : (r: Result<DataInfo<T>, Fault>)
    ensures root.Arr? && |root.elems| == 0 ==> r == Err(EmptyBatch)
    ensures !root.Obj? && !root.Arr? ==> r == Err(Fail(InvalidMessage, "Invalid message"))
    ensures r.Err? ==> IsFatal(r.error) || FailsWith(r, InvalidMessage)
    ensures root.Obj? ==> (r.Ok? <==> ItemOutcome(root, decode).Ok?)
    ensures root.Obj? && r.Err? ==> r.error == ItemOutcome(root, decode).error
    ensures root.Obj? && r.Ok? ==> r.value == Single(ItemOutcome(root, decode).value)
    ensures root.Arr? && |root.elems| > 0 ==>
              (r.Ok? <==> AllCaptured(root.elems, decode) && Unique(MessageIds(Outcomes(root.elems, decode), idOf)))
    ensures root.Arr? && |root.elems| > 0 && AllCaptured(root.elems, decode) &&
              !Unique(MessageIds(Outcomes(root.elems, decode), idOf)) ==>
              FailsWith(r, InvalidMessage)
    ensures root.Arr? ==>
              forall k | 0 <= k < |root.elems| && StopsAt(root.elems, decode, idOf, 0, [], k) ::
                r == Err(StopFault(root.elems[k], decode, idOf))
    ensures root.Arr? && r.Ok? ==>
              r.value.BatchOf? && |r.value.items| == |root.elems| &&
              forall k | 0 <= k < |root.elems| :: ItemOutcome(root.elems[k], decode) == Ok(r.value.items[k])
  {
    match root
    case Obj(fields) =>
      (match Promote(decode(fields))
       case Ok(slot) => Ok(Single(slot))
       case Err(f) => Err(f))
    case Arr(elems) =>
      if |elems| == 0 then Err(EmptyBatch)
      else
        DecodeItemsSpec(elems, decode, idOf);
        DecodeItemsFirstFailure(elems, decode, idOf);
        (match DecodeItems(elems, decode, idOf)
         case Ok(items) => Ok(BatchOf(items))
         case Err(f) => Err(f))
    case _ => Err(Fail(InvalidMessage, "Invalid message"))
  }

  /** The exception for a missing (null) item of a collection to encode. */
  function NotAMessageAt(i: nat): Fault {
    Fail(GenericError, "The batch item at position " + IntToDecimal(i) + " is not a message")
  }

  /** The identifier `id` was met before item `k` by an encode loop started at
      item `i` with the sets `seen`: it is in the sets already, or it collides
      with the identifier of a present item in between. */
  predicate ItemMetBefore<T>(items: seq<Option<T>>, idOf: T -> Id, i: int, k: int, seen: Seen, id: Id)
    requires 0 <= i <= k <= |items|
  {
    Contains(seen, id) || exists j | i <= j < k :: items[j].Some? && Collide(idOf(items[j].value), id)
  }

  /** The fault the item at `k` may abort an encode loop started at `i` with:
      a null item is refused by its position; a present one by the
      repeated-identifier exception naming its identifier, met before, or by
      its conversion's own fault. */
  predicate EncodeFault<T>(items: seq<Option<T>>, encode: T -> Result<Json, Fault>, idOf: T -> Id,
                           i: int, seen: Seen, k: int, f: Fault)
    requires 0 <= i <= k < |items|
  {
    match items[k]
    case None => f == NotAMessageAt(k)
    case Some(x) =>
      (f == DuplicateFault(GenericError, idOf(x)) && ItemMetBefore(items, idOf, i, k, seen, idOf(x))) ||
      encode(x) == Err(f)
  }

  /** The batch encode loop from item `i` on: a null item, then a repeated
      identifier, then a failing conversion aborts the call; otherwise each
      item's tree is appended in order. */
  function EncodeFrom<T>(items: seq<Option<T>>, encode: T -> Result<Json, Fault>, idOf: T -> Id,
                         i: nat, seen: Seen, acc: seq<Json>): Result<seq<Json>, Fault>
    requires i <= |items|
    decreases |items| - i
  {
    if i == |items| then Ok(acc)
    else
      match items[i]
      case None => Err(NotAMessageAt(i))
      case Some(x) =>
        match Track(seen, idOf(x))
        case None => Err(DuplicateFault(GenericError, idOf(x)))
        case Some(seen') =>
          match encode(x)
          case Err(f) => Err(f)
          case Ok(tree) => EncodeFrom(items, encode, idOf, i + 1, seen', acc + [tree])
  }

  function EncodeItems<T>(items: seq<Option<T>>, encode: T -> Result<Json, Fault>, idOf: T -> Id)
    : Result<seq<Json>, Fault>
  {
    EncodeFrom(items, encode, idOf, 0, NothingSeen, [])
  }

  /** Every item is present and converts. */
  predicate AllEncodable<T>(items: seq<Option<T>>, encode: T -> Result<Json, Fault>) {
    forall k | 0 <= k < |items| :: items[k].Some? && encode(items[k].value).Ok?
  }

  /** The identifiers of the present items, in order. */
  function ItemIds<T>(items: seq<Option<T>>, idOf: T -> Id): seq<Id> {
    if |items| == 0 then []
    else (if items[0].Some? then [idOf(items[0].value)] else []) + ItemIds(items[1..], idOf)
  }

  /** The trees of the items converted one by one, in order. */
  function Encoded<T>(items: seq<Option<T>>, encode: T -> Result<Json, Fault>): (trees: seq<Json>)
    requires AllEncodable(items, encode)
    ensures |trees| == |items|
    ensures forall k | 0 <= k < |items| :: encode(items[k].value) == Ok(trees[k])
  {
    if |items| == 0 then []
    else [encode(items[0].value).value] + Encoded(items[1..], encode)
  }

  /** Splitting the first item off the remaining ones. */
  lemma ItemsCons<T>(items: seq<Option<T>>, encode: T -> Result<Json, Fault>, idOf: T -> Id, i: nat)
    requires i < |items|
    ensures AllEncodable(items[i..], encode) <==>
              items[i].Some? && encode(items[i].value).Ok? && AllEncodable(items[i + 1..], encode)
    ensures AllEncodable(items[i..], encode) ==>
              Encoded(items[i..], encode) == [encode(items[i].value).value] + Encoded(items[i + 1..], encode)
    ensures ItemIds(items[i..], idOf) ==
              (if items[i].Some? then [idOf(items[i].value)] else []) + ItemIds(items[i + 1..], idOf)
  {
    var rest := items[i + 1..];
    assert items[i..][0] == items[i];
    assert items[i..][1..] == rest;
    if AllEncodable(items[i..], encode) {
      forall k | 0 <= k < |rest|
        ensures rest[k].Some? && encode(rest[k].value).Ok?
      {
        assert rest[k] == items[i..][k + 1];
      }
    } else if items[i].Some? && encode(items[i].value).Ok? {
      var k :| 0 <= k < |items[i..]| && !(items[i..][k].Some? && encode(items[i..][k].value).Ok?);
      assert k > 0 && items[i..][k] == rest[k - 1];
    }
  }

  lemma {:induction false} EncodeFromSpec<T>(items: seq<Option<T>>, encode: T -> Result<Json, Fault>,
                                             idOf: T -> Id, i: nat, seen: Seen, ids: seq<Id>, acc: seq<Json>)
    requires i <= |items|
    requires Records(seen, ids) && Unique(ids)
    ensures EncodeFrom(items, encode, idOf, i, seen, acc).Ok? <==>
              AllEncodable(items[i..], encode) && Unique(ids + ItemIds(items[i..], idOf))
    ensures EncodeFrom(items, encode, idOf, i, seen, acc).Ok? ==>
              AllEncodable(items[i..], encode) &&
              EncodeFrom(items, encode, idOf, i, seen, acc).value == acc + Encoded(items[i..], encode)
    decreases |items| - i, 2
  {
    if i == |items| {
      assert items[i..] == [];
      assert ids + [] == ids;
      assert acc + [] == acc;
    } else {
      ItemsCons(items, encode, idOf, i);
      if items[i].Some? {
        EncodePresentStep(items, encode, idOf, i, seen, ids, acc);
      }
    }
  }

  /** The step of `EncodeFromSpec` for a present item. */
  lemma {:induction false} EncodePresentStep<T>(items: seq<Option<T>>, encode: T -> Result<Json, Fault>,
                                                idOf: T -> Id, i: nat, seen: Seen, ids: seq<Id>, acc: seq<Json>)
    requires i < |items| && items[i].Some?
    requires Records(seen, ids) && Unique(ids)
    requires AllEncodable(items[i..], encode) <==> encode(items[i].value).Ok? && AllEncodable(items[i + 1..], encode)
    requires AllEncodable(items[i..], encode) ==>
               Encoded(items[i..], encode) == [encode(items[i].value).value] + Encoded(items[i + 1..], encode)
    requires ItemIds(items[i..], idOf) == [idOf(items[i].value)] + ItemIds(items[i + 1..], idOf)
    ensures EncodeFrom(items, encode, idOf, i, seen, acc).Ok? <==>
              AllEncodable(items[i..], encode) && Unique(ids + ItemIds(items[i..], idOf))
    ensures EncodeFrom(items, encode, idOf, i, seen, acc).Ok? ==>
              AllEncodable(items[i..], encode) &&
              EncodeFrom(items, encode, idOf, i, seen, acc).value == acc + Encoded(items[i..], encode)
    decreases |items| - i, 1
  {
    var rest := items[i + 1..];
    var x := items[i].value;
    var id := idOf(x);
    TrackRecords(seen, ids, id);
    UniqueSnoc(ids, id);
    assert ids + ItemIds(items[i..], idOf) == (ids + [id]) + ItemIds(rest, idOf);
    if Track(seen, id).None? {
      NotUniqueExtends(ids + [id], ItemIds(rest, idOf));
    } else if encode(x).Ok? {
      EncodeTrackedStep(items, encode, idOf, i, Track(seen, id).value, ids + [id], acc);
    }
  }

  /** The step of `EncodePresentStep` once the item's identifier is tracked
      and the item converts. */
  lemma {:induction false} EncodeTrackedStep<T>(items: seq<Option<T>>, encode: T -> Result<Json, Fault>,
                                                idOf: T -> Id, i: nat, seen': Seen, ids': seq<Id>, acc: seq<Json>)
    requires i < |items| && items[i].Some? && encode(items[i].value).Ok?
    requires Records(seen', ids') && Unique(ids')
    requires AllEncodable(items[i..], encode) <==> AllEncodable(items[i + 1..], encode)
    requires AllEncodable(items[i..], encode) ==>
               Encoded(items[i..], encode) == [encode(items[i].value).value] + Encoded(items[i + 1..], encode)
    ensures EncodeFrom(items, encode, idOf, i + 1, seen', acc + [encode(items[i].value).value]).Ok? <==>
              AllEncodable(items[i..], encode) && Unique(ids' + ItemIds(items[i + 1..], idOf))
    ensures EncodeFrom(items, encode, idOf, i + 1, seen', acc + [encode(items[i].value).value]).Ok? ==>
              AllEncodable(items[i..], encode) &&
              EncodeFrom(items, encode, idOf, i + 1, seen', acc + [encode(items[i].value).value]).value ==
                acc + Encoded(items[i..], encode)
    decreases |items| - i, 0
  {
    var acc' := acc + [encode(items[i].value).value];
    EncodeFromSpec(items, encode, idOf, i + 1, seen', ids', acc');
    if AllEncodable(items[i..], encode) {
      assert acc + Encoded(items[i..], encode) == acc' + Encoded(items[i + 1..], encode);
    }
  }

  /** A failing encode loop fails with the fault of one of the items it had
      still to write. */
  lemma {:induction false} EncodeFromFault<T>(items: seq<Option<T>>, encode: T -> Result<Json, Fault>,
                                              idOf: T -> Id, i: nat, seen: Seen, acc: seq<Json>)
    requires i <= |items| && EncodeFrom(items, encode, idOf, i, seen, acc).Err?
    ensures exists k | i <= k < |items| ::
              EncodeFault(items, encode, idOf, i, seen, k, EncodeFrom(items, encode, idOf, i, seen, acc).error)
    decreases |items| - i
  {
    var f := EncodeFrom(items, encode, idOf, i, seen, acc).error;
    if items[i].None? || Track(seen, idOf(items[i].value)).None? || encode(items[i].value).Err? {
      assert EncodeFault(items, encode, idOf, i, seen, i, f);
    } else {
      var x := items[i].value;
      var seen' := Track(seen, idOf(x)).value;
      EncodeFromFault(items, encode, idOf, i + 1, seen', acc + [encode(x).value]);
      var k :| i + 1 <= k < |items| && EncodeFault(items, encode, idOf, i + 1, seen', k, f);
      if items[k].Some? && ItemMetBefore(items, idOf, i + 1, k, seen', idOf(items[k].value)) {
        var id := idOf(items[k].value);
        if Contains(seen', id) && !Contains(seen, id) {
          assert Collide(idOf(items[i].value), id);
        }
        assert ItemMetBefore(items, idOf, i, k, seen, id);
      }
      assert EncodeFault(items, encode, idOf, i, seen, k, f);
    }
  }

  /** The first null item decides the outcome when every item before it is
      present, converts, and carries a fresh identifier: the call is refused
      with the exception naming that item's position. */
  lemma {:induction false} EncodeFirstNull<T>(items: seq<Option<T>>, encode: T -> Result<Json, Fault>,
                                              idOf: T -> Id, i: nat, seen: Seen, ids: seq<Id>, acc: seq<Json>, k: nat)
    requires i <= k < |items| && items[k].None?
    requires Records(seen, ids) && Unique(ids)
    requires AllEncodable(items[i..k], encode) && Unique(ids + ItemIds(items[i..k], idOf))
    ensures EncodeFrom(items, encode, idOf, i, seen, acc) == Err(NotAMessageAt(k))
    decreases k - i
  {
    if i < k {
      var x := items[i].value;
      ItemsCons(items[..k], encode, idOf, i);
      assert items[..k][i..] == items[i..k] && items[..k][i + 1..] == items[i + 1..k];
      assert items[..k][i] == items[i];
      var id := idOf(x);
      TrackRecords(seen, ids, id);
      UniqueSnoc(ids, id);
      assert ids + ItemIds(items[i..k], idOf) == (ids + [id]) + ItemIds(items[i + 1..k], idOf);
      if !Unique(ids + [id]) {
        NotUniqueExtends(ids + [id], ItemIds(items[i + 1..k], idOf));
      }
      EncodeFirstNull(items, encode, idOf, i + 1, Track(seen, id).value, ids + [id], acc + [encode(x).value], k);
    }
  }

  /** Encoding a collection succeeds exactly when every item is present and
      converts and no two items carry colliding identifiers; the trees then
      come out one per item, in the items' order. */
  lemma EncodeItemsSpec<T>(items: seq<Option<T>>, encode: T -> Result<Json, Fault>, idOf: T -> Id)
    ensures EncodeItems(items, encode, idOf).Ok? <==> AllEncodable(items, encode) && Unique(ItemIds(items, idOf))
    ensures EncodeItems(items, encode, idOf).Ok? ==>
              AllEncodable(items, encode) && EncodeItems(items, encode, idOf).value == Encoded(items, encode)
    ensures AllEncodable(items, encode) && !Unique(ItemIds(items, idOf)) ==>
              exists k | 0 <= k < |items| ::
                EncodeItems(items, encode, idOf) == Err(DuplicateFault(GenericError, idOf(items[k].value)))
  {
    NothingSeenRecordsNothing();
    assert items[0..] == items;
    assert [] + ItemIds(items, idOf) == ItemIds(items, idOf);
    assert forall s: seq<Json> :: [] + s == s;
    EncodeFromSpec(items, encode, idOf, 0, NothingSeen, [], []);
    if AllEncodable(items, encode) && !Unique(ItemIds(items, idOf)) {
      EncodeDuplicateRefused(items, encode, idOf);
    }
  }

  /** A collection whose items all convert but whose identifiers collide is
      refused with the generic repeated-identifier exception naming one of
      them. */
  lemma EncodeDuplicateRefused<T>(items: seq<Option<T>>, encode: T -> Result<Json, Fault>, idOf: T -> Id)
    requires AllEncodable(items, encode) && EncodeItems(items, encode, idOf).Err?
    ensures exists k | 0 <= k < |items| ::
              EncodeItems(items, encode, idOf) == Err(DuplicateFault(GenericError, idOf(items[k].value)))
  {
    EncodeFromFault(items, encode, idOf, 0, NothingSeen, []);
    var k :| 0 <= k < |items| && EncodeFault(items, encode, idOf, 0, NothingSeen, k, EncodeItems(items, encode, idOf).error);
    assert encode(items[k].value).Ok?;
  }

  /** The serializer's encode loop as written, with the same lazily allocated
      identifier sets as the decode loop; it agrees with the reference. */
  method EncodeBatchLazy<T>(items: seq<Option<T>>, encode: T -> Result<Json, Fault>, idOf: T -> Id)
    returns (r: Result<seq<Json>, Fault>)
    ensures r == EncodeItems(items, encode, idOf)
  {
    var trees: seq<Json> := [];
    var lazy := Unallocated;
    ghost var seen := NothingSeen;
    var i := 0;
    while i < |items|
      invariant 0 <= i <= |items|
      invariant Agrees(lazy, seen, |items| - i)
      invariant EncodeFrom(items, encode, idOf, i, seen, trees) == EncodeItems(items, encode, idOf)
    {
      if items[i].None? {
        return Err(NotAMessageAt(i));
      }
      var x := items[i].value;
      TrackLazyAgrees(lazy, seen, idOf(x), |items| - i);
      var next := TrackLazy(lazy, idOf(x), |items| - i);
      if next.None? {
        return Err(DuplicateFault(GenericError, idOf(x)));
      }
      var tree := encode(x);
      if tree.Err? {
        return Err(tree.error);
      }
      lazy := next.value;
      seen := Track(seen, idOf(x)).value;
      trees := trees + [tree.value];
      i := i + 1;
    }
    return Ok(trees);
  }

  /** Every item present. */
  predicate AllPresent<T>(items: seq<Option<T>>) {
    forall k | 0 <= k < |items| :: items[k].Some?
  }

  /** The slots of a batch in which every item decoded to itself. */
  function AsMessages<T>(items: seq<Option<T>>): (slots: seq<Slot<T>>)
    requires AllPresent(items)
    ensures |slots| == |items|
    ensures forall k | 0 <= k < |items| :: slots[k] == Message(items[k].value)
  {
    seq(|items|, k requires 0 <= k < |items| => Message(items[k].value))
  }

  /** The identifiers of the messages of such a batch are those of its items. */
  lemma {:induction false} MessageIdsOfMessages<T>(items: seq<Option<T>>, idOf: T -> Id)
    requires AllPresent(items)
    ensures MessageIds(AsMessages(items), idOf) == ItemIds(items, idOf)
    decreases |items|
  {
    if |items| > 0 {
      assert AsMessages(items)[1..] == AsMessages(items[1..]);
      MessageIdsOfMessages(items[1..], idOf);
    }
  }

  /** When each item's tree is an object that decodes back to the item, the
      encoded trees decode without a fatal fault to one message per item,
      whose identifiers are the items' identifiers. */
  lemma DecodeEncoded<T>(items: seq<Option<T>>, encode: T -> Result<Json, Fault>,
                         decode: map<string, Json> -> Result<T, Fault>, idOf: T -> Id)
    requires AllEncodable(items, encode)
    requires forall k | 0 <= k < |items| ::
               encode(items[k].value).value.Obj? && decode(encode(items[k].value).value.fields) == Ok(items[k].value)
    ensures AllCaptured(Encoded(items, encode), decode)
    ensures Outcomes(Encoded(items, encode), decode) == AsMessages(items)
    ensures MessageIds(Outcomes(Encoded(items, encode), decode), idOf) == ItemIds(items, idOf)
  {
    var trees := Encoded(items, encode);
    forall k | 0 <= k < |trees|
      ensures ItemOutcome(trees[k], decode) == Ok(Message(items[k].value))
    {
      assert trees[k] == encode(items[k].value).value;
    }
    MessageIdsOfMessages(items, idOf);
  }

  /** A non-empty batch of items with distinct identifiers, each encoded to an
      object that decodes back to it, decodes to one message per item. */
  lemma DecodeDataOfEncoded<T>(items: seq<Option<T>>, encode: T -> Result<Json, Fault>,
                               decode: map<string, Json> -> Result<T, Fault>, idOf: T -> Id)
    requires |items| > 0 && AllEncodable(items, encode) && Unique(ItemIds(items, idOf))
    requires forall k | 0 <= k < |items| ::
               encode(items[k].value).value.Obj? && decode(encode(items[k].value).value.fields) == Ok(items[k].value)
    ensures DecodeData(Arr(Encoded(items, encode)), decode, idOf) == Ok(BatchOf(AsMessages(items)))
  {
    DecodeEncoded(items, encode, decode, idOf);
    var r := DecodeData(Arr(Encoded(items, encode)), decode, idOf);
    assert r.Ok?;
    assert r.value.items == AsMessages(items);
  }
}

=== FILE: codec.dfy ===
/** The conversion of one message between its JSON object and its record:
    the ordered checks of a request or response object, the identifier and
    method bindings, the projection of parameters, results and error data, and
    the objects the encoder emits. */
module Codec {
  import opened Wrappers
  import opened Numerics
  import opened JsonValues
  import opened Ids
  import opened Protocol
  import opened Requests

  const NoSchema: Fault := Fail(GenericError, "The type schema is not defined")

  const ConstructionError: Fault := Fail(GenericError, "CLR object construction error")

  const DeconstructionError: Fault := Fail(GenericError, "CLR object deconstruction error")

  /** `ConvertTokenToObject`: projects a tree to an object of the bound type. */
  function Project(conv: Converters, token: Json, tag: TypeTag): (r: Result<Option<Json>, Fault>)
    ensures r.Ok? <==> conv.toObject(token, tag).Some?
    ensures r.Ok? ==> r.value == conv.toObject(token, tag).value
    ensures r.Err? ==> r.error == ConstructionError
  {
    match conv.toObject(token, tag)
    case None => Err(ConstructionError)
    case Some(obj) => Ok(obj)
  }

  /** `ConvertObjectToToken`: the tree of a non-null object. */
  function Unproject(conv: Converters, obj: Json): (r: Result<Json, Fault>)
    ensures r.Ok? <==> conv.fromObject(obj).Some?
    ensures r.Ok? ==> r.value == conv.fromObject(obj).value
    ensures r.Err? ==> r.error == DeconstructionError
  {
    match conv.fromObject(obj)
    case None => Err(DeconstructionError)
    case Some(tree) => Ok(tree)
  }

  /** The protocol member is present, a string, and equal to "2.0". */
  predicate HasProtocol(fields: map<string, Json>) {
    "jsonrpc" in fields && fields["jsonrpc"] == ProtocolVersion
  }

  /** The protocol checks shared by requests and responses; `noun` names the
      message kind in the exception text. */
  function CheckProtocol(fields: map<string, Json>, noun: string): (r: Result<bool, Fault>)
    ensures r.Ok? <==> HasProtocol(fields)
    ensures r.Err? ==> FailsWith(r, InvalidMessage)
  {
    if "jsonrpc" !in fields then
      Err(Fail(InvalidMessage, "The " + noun + " does not have the protocol property"))
    else if !fields["jsonrpc"].Str? then
      Err(Fail(InvalidMessage, "The " + noun + " has the protocol property with invalid type"))
    else if fields["jsonrpc"] != ProtocolVersion then
      Err(Fail(InvalidMessage, "The " + noun + " has an invalid protocol version"))
    else Ok(true)
  }

  /** A type binding of a method, with the text of the exceptions for a
      missing and for a null binding. */
  function TypeFor(table: map<string, Option<TypeTag>>, methodName: string, missing: string, invalid: string)
    : (r: Result<TypeTag, Fault>)
    ensures r.Ok? <==> methodName in table && table[methodName].Some?
    ensures r.Ok? ==> Some(r.value) == table[methodName]
    ensures r.Err? ==> FailsWith(r, GenericError)
  {
    if methodName !in table then Err(Fail(GenericError, missing + " \"" + methodName + "\" method"))
    else if table[methodName].None? then Err(Fail(GenericError, invalid + " \"" + methodName + "\" method"))
    else Ok(table[methodName].value)
  }

  /** The identifier member of a request: absent, an integer or a string;
      any other type, `null` included, is invalid. */
  function RequestId(fields: map<string, Json>): (r: Result<Id, Fault>)
    ensures "id" !in fields ==> r == Ok(Absent)
    ensures r.Ok? && "id" in fields ==> IdToken(r.value) == fields["id"] && !r.value.Absent?
    ensures r.Err? <==> "id" in fields && !fields["id"].Int? && !fields["id"].Str?
    ensures r.Err? ==> FailsWith(r, InvalidMessage)
  {
    if "id" !in fields then Ok(Absent)
    else
      match fields["id"]
      case Int(n) => Ok(Number(n))
      case Str(s) => Ok(Text(s))
      case _ => Err(Fail(InvalidMessage, "The request has the identifier property with invalid type"))
  }

  /** The tree an identifier is written as; an absent one is written as
      `null` where it is written at all. */
  function IdToken(id: Id): Json {
    match id
    case Absent => Null
    case Number(n) => Int(n)
    case Text(s) => Str(s)
  }

  /** The identifier member of a response: an integer or a string; `null`, a
      missing member or any other type leave the identifier absent. */
  function ResponseId(fields: map<string, Json>): (id: Id)
    ensures id.Absent? <==> "id" !in fields || (!fields["id"].Int? && !fields["id"].Str?)
    ensures !id.Absent? ==> IdToken(id) == fields["id"]
  {
    if "id" !in fields then Absent
    else
      match fields["id"]
      case Int(n) => Number(n)
      case Str(s) => Text(s)
      case _ => Absent
  }

  /** A request object the decoder accepts once its parameters project: the
      protocol member, a non-empty supported method name, a well-typed
      identifier and, when parameters are given, a non-null type binding. */
  predicate WellFormedRequest(schema: Schema, fields: map<string, Json>) {
    && HasProtocol(fields)
    && HasMethodName(fields)
    && fields["method"].s in schema.supportedMethods
    && ("id" in fields ==> fields["id"].Int? || fields["id"].Str?)
    && (GivesParams(fields) ==>
          fields["method"].s in schema.parameterTypes && schema.parameterTypes[fields["method"].s].Some?)
  }

  /** The method member is present and a non-empty string. */
  predicate HasMethodName(fields: map<string, Json>) {
    "method" in fields && fields["method"].Str? && |fields["method"].s| > 0
  }

  /** The parameters member is present and not `null`. */
  predicate GivesParams(fields: map<string, Json>) {
    "params" in fields && !fields["params"].Null?
  }

  /** `ConvertTokenToRequest`. The checks run in the source's order: schema,
      protocol, method, support, identifier, then the parameters' binding and
      projection. The shape of the parameters is not checked here. */
  function DecodeRequest(ser: SerializerConfig, fields: map<string, Json>): (r: Result<Request, Fault>)
    ensures ser.schema.None? ==> r == Err(NoSchema)
    ensures ser.schema.Some? ==>
              (r.Ok? <==> WellFormedRequest(ser.schema.value, fields) &&
                          (GivesParams(fields) ==>
                             ser.conv.toObject(fields["params"],
                                               ser.schema.value.parameterTypes[fields["method"].s].value).Some?))
    ensures r.Ok? ==> Str(r.value.methodName) == fields["method"]
    ensures r.Ok? ==> r.value.id == RequestId(fields).value
    ensures r.Ok? ==> (GivesParams(fields) || !HasParams(r.value))
    ensures r.Ok? && GivesParams(fields) ==>
              r.value.params ==
                ser.conv.toObject(fields["params"], ser.schema.value.parameterTypes[fields["method"].s].value).value
    ensures r.Err? && ser.schema.Some? && !HasProtocol(fields) ==> FailsWith(r, InvalidMessage)
    ensures ser.schema.Some? && HasProtocol(fields) && !HasMethodName(fields) ==> FailsWith(r, InvalidMessage)
    ensures FailsWith(r, InvalidMethod) <==>
              ser.schema.Some? && HasProtocol(fields) && HasMethodName(fields) &&
              fields["method"].s !in ser.schema.value.supportedMethods
    ensures ser.schema.Some? && HasProtocol(fields) && HasMethodName(fields) &&
            fields["method"].s in ser.schema.value.supportedMethods && RequestId(fields).Err? ==>
              FailsWith(r, InvalidMessage)
    ensures ser.schema.Some? && HasProtocol(fields) && HasMethodName(fields) &&
            fields["method"].s in ser.schema.value.supportedMethods && RequestId(fields).Ok? && r.Err? ==>
              FailsWith(r, GenericError)
    ensures !FailsWith(r, ParseError) && !(r.Err? && r.error.Unspecified?)
  {
    if ser.schema.None? then Err(NoSchema)
    else
      var schema := ser.schema.value;
      var _ :- CheckProtocol(fields, "request");
      if "method" !in fields then Err(Fail(InvalidMessage, "The request does not have the method property"))
      else if !fields["method"].Str? then Err(Fail(InvalidMessage, "The request has the method property with invalid type"))
      else
        var name := fields["method"].s;
        if |name| == 0 then Err(Fail(InvalidMessage, "The request has an empty method name"))
        else if name !in schema.supportedMethods then
          Err(Fail(InvalidMethod, "The request method \"" + name + "\" is not supported"))
        else
          var id :- RequestId(fields);
          if GivesParams(fields) then
            var tag :- TypeFor(schema.parameterTypes, name,
                               "There is no type binding for parameters' object of the",
                               "Invalid type binding for parameters' object of the");
            var params :- Project(ser.conv, fields["params"], tag);
            Ok(Request(name, id, params))
          else Ok(Request(name, id, None))
  }

  const ParamsTypeError: Fault := Fail(GenericError, "The request has the parameters' property with invalid type")

  /** `ConvertRequestToToken`: the protocol and method members, the
      parameters when there are any (which must come out as an object or an
      array), and the identifier unless the request is a notification. */
  function EncodeRequest(conv: Converters, req: Request): (r: Result<Json, Fault>)
    ensures r.Ok? <==> !HasParams(req) ||
                       (conv.fromObject(req.params.value).Some? &&
                        (conv.fromObject(req.params.value).value.Obj? || conv.fromObject(req.params.value).value.Arr?))
    ensures HasParams(req) && r.Err? && conv.fromObject(req.params.value).Some? ==> r == Err(ParamsTypeError)
    ensures HasParams(req) && conv.fromObject(req.params.value).None? ==> r == Err(DeconstructionError)
    ensures r.Ok? ==> r.value.Obj? && HasProtocol(r.value.fields)
    ensures r.Ok? ==> "method" in r.value.fields && r.value.fields["method"] == Str(req.methodName)
    ensures r.Ok? ==> ("params" in r.value.fields <==> HasParams(req))
    ensures r.Ok? && HasParams(req) ==> r.value.fields["params"] == conv.fromObject(req.params.value).value
    ensures r.Ok? ==> ("id" in r.value.fields <==> !IsNotification(req))
    ensures r.Ok? && !IsNotification(req) ==> r.value.fields["id"] == IdToken(req.id)
    ensures r.Ok? ==> r.value.fields.Keys <= {"jsonrpc", "method", "params", "id"}
  {
    var head := map["jsonrpc" := ProtocolVersion, "method" := Str(req.methodName)];
    var body :-
      if req.params.None? then Ok(head)
      else
        var tree :- Unproject(conv, req.params.value);
        if !tree.Obj? && !tree.Arr? then Err(ParamsTypeError) else Ok(head["params" := tree]);
    match req.id
    case Number(n) => Ok(Obj(body["id" := Int(n)]))
    case Text(s) => Ok(Obj(body["id" := Str(s)]))
    case Absent => Ok(Obj(body))
  }

  /** The converters undo each other on the request's parameters, which come
      out as an object or an array and whose method has a non-null binding. */
  predicate ParamsRoundTrip(ser: SerializerConfig, req: Request) {
    ser.schema.Some? &&
    (req.params.Some? ==>
       && req.methodName in ser.schema.value.parameterTypes
       && ser.schema.value.parameterTypes[req.methodName].Some?
       && ser.conv.fromObject(req.params.value).Some?
       && (ser.conv.fromObject(req.params.value).value.Obj? || ser.conv.fromObject(req.params.value).value.Arr?)
       && ser.conv.toObject(ser.conv.fromObject(req.params.value).value,
                            ser.schema.value.parameterTypes[req.methodName].value) == Some(req.params))
  }

  /** A request with a non-empty supported method whose parameters survive the
      projection both ways is decoded back from its encoding unchanged. */
  lemma RequestRoundTrip(ser: SerializerConfig, req: Request)
    requires ParamsRoundTrip(ser, req)
    requires |req.methodName| > 0 && req.methodName in ser.schema.value.supportedMethods
    ensures EncodeRequest(ser.conv, req).Ok?
    ensures DecodeRequest(ser, EncodeRequest(ser.conv, req).value.fields) == Ok(req)
  {
    var fields := EncodeRequest(ser.conv, req).value.fields;
    assert HasProtocol(fields) && HasMethodName(fields);
    assert RequestId(fields) == Ok(req.id);
    assert GivesParams(fields) <==> HasParams(req);
  }

  /** The method name bound to a response identifier. An absent identifier
      looks up a null method name, which the schema's dictionary rejects with
      an exception that is not a `JsonRpcException`. */
  function MethodFor(bindings: Bindings, id: Id): (r: Result<string, Fault>)
    ensures id.Absent? ==> r.Err? && r.error.Unspecified?
    ensures r.Ok? <==> !id.Absent? && id in bindings && bindings[id].Some?
    ensures r.Ok? ==> bindings[id] == Some(r.value)
    ensures r.Err? && !id.Absent? ==> FailsWith(r, GenericError)
  {
    if id.Absent? then Err(Unspecified("a null method name is looked up in the result type bindings"))
    else if id !in bindings then
      Err(Fail(GenericError, "There is no method binding for the response with the \"" + ToString(id) + "\" identifier"))
    else if bindings[id].None? then
      Err(Fail(GenericError, "Invalid method binding for the response with the \"" + ToString(id) + "\" identifier"))
    else Ok(bindings[id].value)
  }

  /** The type the result of a response is projected to: the result binding
      of the method the identifier is bound to. */
  function ResultTypeFor(schema: Schema, bindings: Bindings, id: Id): (r: Result<TypeTag, Fault>)
    ensures r.Ok? <==> MethodFor(bindings, id).Ok? && MethodFor(bindings, id).value in schema.resultTypes &&
                       schema.resultTypes[MethodFor(bindings, id).value].Some?
    ensures r.Ok? ==> Some(r.value) == schema.resultTypes[MethodFor(bindings, id).value]
    ensures r.Err? ==> r.error.Unspecified? || FailsWith(r, GenericError)
    ensures r.Err? && !id.Absent? ==> FailsWith(r, GenericError)
  {
    var name :- MethodFor(bindings, id);
    TypeFor(schema.resultTypes, name,
            "There is no type binding for the result's object of the",
            "Invalid type binding for result's object of the")
  }

  /** The type the error data of a response is projected to: the generic
      binding for an absent identifier, else the binding of the method the
      identifier is bound to. */
  function DataTypeFor(schema: Schema, bindings: Bindings, id: Id): (r: Result<TypeTag, Fault>)
    ensures id.Absent? ==> (r.Ok? <==> schema.errorDataTypeGeneric.Some?)
    ensures id.Absent? && r.Ok? ==> Some(r.value) == schema.errorDataTypeGeneric
    ensures !id.Absent? ==>
              (r.Ok? <==> MethodFor(bindings, id).Ok? && MethodFor(bindings, id).value in schema.errorDataTypes &&
                          schema.errorDataTypes[MethodFor(bindings, id).value].Some?)
    ensures !id.Absent? && r.Ok? ==> Some(r.value) == schema.errorDataTypes[MethodFor(bindings, id).value]
    ensures r.Err? ==> FailsWith(r, GenericError)
  {
    if id.Absent? then
      if schema.errorDataTypeGeneric.None? then
        Err(Fail(GenericError, "There is no type binding for the generic error data object"))
      else Ok(schema.errorDataTypeGeneric.value)
    else
      var name :- MethodFor(bindings, id);
      TypeFor(schema.errorDataTypes, name,
              "There is no type binding for the error data object of the",
              "Invalid type binding for the error data object of the")
  }

  /** An error object with an integer code and a string message. */
  predicate HasErrorHeader(token: Json) {
    && token.Obj?
    && "code" in token.fields && token.fields["code"].Int?
    && "message" in token.fields && token.fields["message"].Str?
  }

  /** The error object gives data: a `data` member that is not `null`. */
  predicate GivesData(token: Json) {
    token.Obj? && "data" in token.fields && !token.fields["data"].Null?
  }

  /** The error object of a response: an object with an integer code and a
      string message; the data is projected when present and not `null`, to
      the type `DataTypeFor` resolves. */
  function DecodeError(conv: Converters, schema: Schema, bindings: Bindings, id: Id, token: Json)
    : (r: Result<ErrorObject, Fault>)
    ensures !HasErrorHeader(token) ==> FailsWith(r, InvalidMessage)
    ensures HasErrorHeader(token) && !GivesData(token) ==> r.Ok? && r.value.data.None?
    ensures HasErrorHeader(token) && GivesData(token) ==>
              (r.Ok? <==> DataTypeFor(schema, bindings, id).Ok? &&
                          conv.toObject(token.fields["data"], DataTypeFor(schema, bindings, id).value).Some?)
    ensures HasErrorHeader(token) && r.Err? ==> FailsWith(r, GenericError)
    ensures r.Ok? ==> HasErrorHeader(token) && Int(r.value.code) == token.fields["code"]
    ensures r.Ok? ==> Str(r.value.message) == token.fields["message"]
    ensures r.Ok? && GivesData(token) ==>
              r.value.data == conv.toObject(token.fields["data"], DataTypeFor(schema, bindings, id).value).value
  {
    if !token.Obj? then Err(Fail(InvalidMessage, "The response has the error property with invalid type"))
    else
      var e := token.fields;
      if "code" !in e then Err(Fail(InvalidMessage, "The response does not have the error code property"))
      else if !e["code"].Int? then Err(Fail(InvalidMessage, "The response has the error code property with invalid type"))
      else if "message" !in e then Err(Fail(InvalidMessage, "The response does not have the error message property"))
      else if !e["message"].Str? then
        Err(Fail(InvalidMessage, "The response has the error message property with invalid type"))
      else if "data" in e && !e["data"].Null? then
        var tag :- DataTypeFor(schema, bindings, id);
        var data :- Project(conv, e["data"], tag);
        Ok(ErrorObject(e["code"].i, e["message"].s, data))
      else Ok(ErrorObject(e["code"].i, e["message"].s, None))
  }

  /** The result of a response: projected to the result type of the method
      its identifier is bound to. */
  function DecodeResult(conv: Converters, schema: Schema, bindings: Bindings, id: Id, token: Json)
    : (r: Result<Option<Json>, Fault>)
    ensures r.Ok? <==> ResultTypeFor(schema, bindings, id).Ok? &&
                       conv.toObject(token, ResultTypeFor(schema, bindings, id).value).Some?
    ensures r.Ok? ==> r.value == conv.toObject(token, ResultTypeFor(schema, bindings, id).value).value
    ensures id.Absent? ==> r.Err? && r.error.Unspecified?
    ensures r.Err? && !id.Absent? ==> FailsWith(r, GenericError)
  {
    var tag :- ResultTypeFor(schema, bindings, id);
    Project(conv, token, tag)
  }

  /** The members of a response object after the protocol check: exactly one
      of result and error, then the result's bindings and projection or the
      error object. */
  function DecodeMembers(ser: SerializerConfig, schema: Schema, bindings: Bindings, fields: map<string, Json>)
    : (r: Result<Response, Fault>)
    ensures ("result" in fields <==> "error" in fields) ==> FailsWith(r, InvalidMessage)
    ensures r.Ok? ==> r.value.id == ResponseId(fields)
    ensures r.Ok? ==> (r.value.error.None? <==> "result" in fields)
    ensures r.Ok? ==> r.value.result.None? || "result" in fields
    ensures "result" in fields && "error" !in fields ==>
              (r.Ok? <==> DecodeResult(ser.conv, schema, bindings, ResponseId(fields), fields["result"]).Ok?)
    ensures r.Ok? && "result" in fields ==>
              r.value.result == DecodeResult(ser.conv, schema, bindings, ResponseId(fields), fields["result"]).value
    ensures r.Err? && "result" in fields && "error" !in fields ==>
              r.error == DecodeResult(ser.conv, schema, bindings, ResponseId(fields), fields["result"]).error
    ensures "error" in fields && "result" !in fields ==>
              (r.Ok? <==> DecodeError(ser.conv, schema, bindings, ResponseId(fields), fields["error"]).Ok?)
    ensures r.Ok? && "error" in fields ==>
              r.value.error == Some(DecodeError(ser.conv, schema, bindings, ResponseId(fields), fields["error"]).value)
    ensures r.Err? && "error" in fields && "result" !in fields ==>
              r.error == DecodeError(ser.conv, schema, bindings, ResponseId(fields), fields["error"]).error
  {
    var id := ResponseId(fields);
    if "result" !in fields && "error" !in fields then
      Err(Fail(InvalidMessage, "The response has neither result nor error properties"))
    else if "result" in fields && "error" in fields then
      Err(Fail(InvalidMessage, "The response has the result and error properties simultaneously"))
    else if "result" in fields then
      var result :- DecodeResult(ser.conv, schema, bindings, id, fields["result"]);
      Ok(Response(id, result, None))
    else
      var error :- DecodeError(ser.conv, schema, bindings, id, fields["error"]);
      Ok(Response(id, None, Some(error)))
  }

  /** `ConvertTokenToResponse`. The checks run in the source's order: schema,
      protocol, identifier, exactly one of result and error, then the result's
      bindings and projection or the error object. */
  function DecodeResponse(ser: SerializerConfig, bindings: Bindings, fields: map<string, Json>): (r: Result<Response, Fault>)
    ensures ser.schema.None? ==> r == Err(NoSchema)
    ensures ser.schema.Some? && !HasProtocol(fields) ==> FailsWith(r, InvalidMessage)
    ensures ser.schema.Some? && HasProtocol(fields) ==> r == DecodeMembers(ser, ser.schema.value, bindings, fields)
    ensures ser.schema.Some? && HasProtocol(fields) && "result" in fields && "error" !in fields ==>
              (r.Ok? <==> ResultTypeFor(ser.schema.value, bindings, ResponseId(fields)).Ok? &&
                          ser.conv.toObject(fields["result"],
                                            ResultTypeFor(ser.schema.value, bindings, ResponseId(fields)).value).Some?)
    ensures !FailsWith(r, ParseError) && !FailsWith(r, InvalidMethod)
  {
    match ser.schema
    case None => Err(NoSchema)
    case Some(schema) =>
      match CheckProtocol(fields, "response")
      case Err(f) => Err(f)
      case Ok(_) => DecodeMembers(ser, schema, bindings, fields)
  }

  /** The error object of a response: code, message and, when there is any,
      the data's tree. */
  function EncodeError(conv: Converters, e: ErrorObject): (r: Result<Json, Fault>)
    ensures r.Ok? <==> e.data.None? || conv.fromObject(e.data.value).Some?
    ensures r.Ok? ==> r.value.Obj? && r.value.fields.Keys <= {"code", "message", "data"}
    ensures r.Ok? ==> "code" in r.value.fields && r.value.fields["code"] == Int(e.code)
    ensures r.Ok? ==> "message" in r.value.fields && r.value.fields["message"] == Str(e.message)
    ensures r.Ok? ==> ("data" in r.value.fields <==> e.data.Some?)
    ensures r.Ok? && e.data.Some? ==> Some(r.value.fields["data"]) == conv.fromObject(e.data.value)
    ensures r.Err? ==> r == Err(DeconstructionError)
  {
    var error := map["code" := Int(e.code), "message" := Str(e.message)];
    if e.data.Some? then
      var tree :- Unproject(conv, e.data.value);
      Ok(Obj(error["data" := tree]))
    else Ok(Obj(error))
  }

  /** `ConvertResponseToToken`: the protocol member, the result when there is
      one and otherwise the error object, and the identifier in every case,
      `null` when it is absent. A response with neither a result nor an error
      dereferences a null error object. */
  function EncodeResponse(conv: Converters, resp: Response): (r: Result<Json, Fault>)
    ensures resp.result.None? && resp.error.None? ==> r.Err? && r.error.Unspecified?
    ensures r.Ok? ==> r.value.Obj? && HasProtocol(r.value.fields)
    ensures r.Ok? ==> "id" in r.value.fields && r.value.fields["id"] == IdToken(resp.id)
    ensures r.Ok? ==> ("result" in r.value.fields <==> resp.result.Some?)
    ensures r.Ok? ==> ("error" in r.value.fields <==> resp.result.None?)
    ensures r.Ok? && resp.result.Some? ==> Some(r.value.fields["result"]) == conv.fromObject(resp.result.value)
    ensures resp.result.Some? ==> (r.Ok? <==> conv.fromObject(resp.result.value).Some?)
    ensures r.Err? && resp.result.Some? ==> r == Err(DeconstructionError)
    ensures resp.result.None? && resp.error.Some? ==> (r.Ok? <==> EncodeError(conv, resp.error.value).Ok?)
    ensures r.Ok? && resp.result.None? ==> r.value.fields["error"] == EncodeError(conv, resp.error.value).value
    ensures r.Err? && resp.error.Some? ==> r == Err(DeconstructionError)
    ensures r.Ok? ==> r.value.fields.Keys <= {"jsonrpc", "result", "error", "id"}
  {
    var head := map["jsonrpc" := ProtocolVersion];
    var body :-
      if resp.result.Some? then
        var tree :- Unproject(conv, resp.result.value);
        Ok(head["result" := tree])
      else if resp.error.None? then Err(Unspecified("the error object of the response is null"))
      else
        var error :- EncodeError(conv, resp.error.value);
        Ok(head["error" := error]);
    Ok(Obj(body["id" := IdToken(resp.id)]))
  }

  /** The converters undo each other on the response's result or error data,
      the identifier's bindings lead to a non-null type, and error data does
      not come out as `null`. */
  predicate PayloadRoundTrip(ser: SerializerConfig, bindings: Bindings, resp: Response) {
    && ser.schema.Some?
    && (resp.result.Some? ==>
          && ResultTypeFor(ser.schema.value, bindings, resp.id).Ok?
          && ser.conv.fromObject(resp.result.value).Some?
          && ser.conv.toObject(ser.conv.fromObject(resp.result.value).value,
                               ResultTypeFor(ser.schema.value, bindings, resp.id).value)
             == Some(resp.result))
    && (resp.result.None? ==> resp.error.Some?)
    && (resp.result.None? && resp.error.value.data.Some? ==>
          && DataTypeFor(ser.schema.value, bindings, resp.id).Ok?
          && ser.conv.fromObject(resp.error.value.data.value).Some?
          && !ser.conv.fromObject(resp.error.value.data.value).value.Null?
          && ser.conv.toObject(ser.conv.fromObject(resp.error.value.data.value).value,
                               DataTypeFor(ser.schema.value, bindings, resp.id).value)
             == Some(resp.error.value.data))
  }

  /** A response whose result has a record type: exactly one of the result
      and the error is set. The decoder only builds such responses. */
  predicate ExactlyOne(resp: Response) {
    resp.result.Some? != resp.error.Some?
  }

  /** A response whose payload survives the projection both ways is decoded
      back from its encoding unchanged. */
  lemma ResponseRoundTrip(ser: SerializerConfig, bindings: Bindings, resp: Response)
    requires PayloadRoundTrip(ser, bindings, resp) && ExactlyOne(resp)
    ensures EncodeResponse(ser.conv, resp).Ok?
    ensures DecodeResponse(ser, bindings, EncodeResponse(ser.conv, resp).value.fields) == Ok(resp)
  {
    var fields := EncodeResponse(ser.conv, resp).value.fields;
    assert HasProtocol(fields);
    assert ResponseId(fields) == resp.id;
    if resp.result.None? {
      ErrorRoundTrip(ser, bindings, resp.id, resp.error.value);
    }
  }

  /** The error object of a response is decoded back from its encoding. */
  lemma ErrorRoundTrip(ser: SerializerConfig, bindings: Bindings, id: Id, e: ErrorObject)
    requires ser.schema.Some?
    requires e.data.Some? ==>
               && DataTypeFor(ser.schema.value, bindings, id).Ok?
               && ser.conv.fromObject(e.data.value).Some?
               && !ser.conv.fromObject(e.data.value).value.Null?
               && ser.conv.toObject(ser.conv.fromObject(e.data.value).value,
                                    DataTypeFor(ser.schema.value, bindings, id).value) == Some(e.data)
    ensures EncodeError(ser.conv, e).Ok?
    ensures DecodeError(ser.conv, ser.schema.value, bindings, id, EncodeError(ser.conv, e).value) == Ok(e)
  {
  }
}

=== FILE: duplicates.dfy ===
/** Duplicate-identifier detection in a batch: the per-type sets of
    identifiers seen so far, both tracked from the first item and allocated
    lazily as the serializer does, and the uniqueness property they decide. */
module Duplicates {
  import opened Wrappers
  import opened Numerics
  import opened Ids

  /** Two identifiers collide when they are equal and not absent; identifiers
      of different types never collide. */
  predicate Collide(a: Id, b: Id) {
    a == b && !a.Absent?
  }

  /** No two identifiers of the sequence collide. */
  predicate Unique(ids: seq<Id>) {
    forall i, j | 0 <= i < j < |ids| :: !Collide(ids[i], ids[j])
  }

  /** The integer and string identifiers seen so far. */
  datatype Seen = Seen(numbers: set<Int64>, texts: set<string>)

  const NothingSeen: Seen := Seen({}, {})

  predicate Contains(seen: Seen, id: Id) {
    match id
    case Absent => false
    case Number(n) => n in seen.numbers
    case Text(s) => s in seen.texts
  }

  /** `HashSet.Add` on the set of the identifier's type, with every set
      allocated from the start; `None` when the identifier is already there.
      Absent identifiers are not tracked. */
  function Track(seen: Seen, id: Id): (r: Option<Seen>)
    ensures r.None? <==> Contains(seen, id)
    ensures r.Some? ==> forall x :: Contains(r.value, x) <==> Contains(seen, x) || Collide(x, id)
  {
    match id
    case Absent => Some(seen)
    case Number(n) => if n in seen.numbers then None else Some(seen.(numbers := seen.numbers + {n}))
    case Text(s) => if s in seen.texts then None else Some(seen.(texts := seen.texts + {s}))
  }

  /** The tracked sets hold exactly the non-absent identifiers of `ids`. */
  ghost predicate Records(seen: Seen, ids: seq<Id>) {
    forall x :: Contains(seen, x) <==> x in ids && !x.Absent?
  }

  lemma NothingSeenRecordsNothing()
    ensures Records(NothingSeen, [])
  {
  }

  /** Tracking one more identifier fails exactly when it repeats a recorded
      one, and otherwise records it. */
  lemma TrackRecords(seen: Seen, ids: seq<Id>, id: Id)
    requires Records(seen, ids)
    ensures Track(seen, id).None? <==> id in ids && !id.Absent?
    ensures Track(seen, id).Some? ==> Records(Track(seen, id).value, ids + [id])
  {
  }

  /** A unique sequence stays unique after appending an identifier exactly
      when that identifier does not repeat a non-absent one. */
  lemma UniqueSnoc(ids: seq<Id>, id: Id)
    requires Unique(ids)
    ensures Unique(ids + [id]) <==> !(id in ids && !id.Absent?)
  {
    if id in ids && !id.Absent? {
      var p :| 0 <= p < |ids| && ids[p] == id;
      assert Collide((ids + [id])[p], (ids + [id])[|ids|]);
    }
  }

  /** A repetition stays a repetition whatever follows it. */
  lemma NotUniqueExtends(ids: seq<Id>, more: seq<Id>)
    requires !Unique(ids)
    ensures !Unique(ids + more)
  {
    var i, j :| 0 <= i < j < |ids| && Collide(ids[i], ids[j]);
    assert (ids + more)[i] == ids[i] && (ids + more)[j] == ids[j];
  }

  /** The serializer's sets, each still unallocated (`None`) until an
      identifier of its type is met with more than one item left. */
  datatype LazySeen = LazySeen(numbers: Option<set<Int64>>, texts: Option<set<string>>)

  const Unallocated: LazySeen := LazySeen(None, None)

  /** One step of the serializer's loop for the item `remaining` places from
      the end (`Count - i`): allocate the set of the identifier's type when it
      is missing and `remaining > 1`, then, if the set exists, add the
      identifier, failing (`None`) when it is already there. */
  function TrackLazy(lazy: LazySeen, id: Id, remaining: int): Option<LazySeen> {
    match id
    case Absent => Some(lazy)
    case Number(n) =>
      var ids := if remaining > 1 && lazy.numbers.None? then Some({}) else lazy.numbers;
      if ids.None? then Some(lazy)
      else if n in ids.value then None
      else Some(lazy.(numbers := Some(ids.value + {n})))
    case Text(s) =>
      var ids := if remaining > 1 && lazy.texts.None? then Some({}) else lazy.texts;
      if ids.None? then Some(lazy)
      else if s in ids.value then None
      else Some(lazy.(texts := Some(ids.value + {s})))
  }

  /** How the lazy sets relate to the track-everything sets with `remaining`
      items still to come: an allocated set is the full set, and an
      unallocated one stands for an empty set while items remain. */
  predicate Agrees(lazy: LazySeen, seen: Seen, remaining: int) {
    && (lazy.numbers.Some? ==> lazy.numbers.value == seen.numbers)
    && (lazy.numbers.None? && remaining > 0 ==> seen.numbers == {})
    && (lazy.texts.Some? ==> lazy.texts.value == seen.texts)
    && (lazy.texts.None? && remaining > 0 ==> seen.texts == {})
  }

  /** Lazy allocation gives the same verdict as tracking every identifier,
      and keeps the two in agreement for the items that follow. */
  lemma TrackLazyAgrees(lazy: LazySeen, seen: Seen, id: Id, remaining: int)
    requires Agrees(lazy, seen, remaining) && remaining >= 1
    ensures TrackLazy(lazy, id, remaining).None? <==> Track(seen, id).None?
    ensures TrackLazy(lazy, id, remaining).Some? ==>
              Agrees(TrackLazy(lazy, id, remaining).value, Track(seen, id).value, remaining - 1)
  {
  }
}

=== FILE: ids.dfy ===
/** The JSON-RPC message identifier (`JsonRpcId`): a tagged value that is
    absent, an integer or a string, with equality, ordering, hashing, text
    rendering and checked narrowing casts. */
module Ids {
  import opened Numerics
  import opened Wrappers

  /** One case per identifier type; the payload lives only in its own case,
      so an ill-tagged identifier cannot be built. `Absent` is the default
      value of the structure. */
  datatype Id = Absent | Number(n: Int64) | Text(s: string)

  /** The underlying values of the identifier-type enumeration, which
      `CompareTo` compares first. Their actual numbers are not part of this
      model; every property below holds for any pairwise distinct choice. */
  datatype TagRank = TagRank(absent: Int32, number: Int32, text: Int32) {

    predicate Valid() {
      absent != number && absent != text && number != text
    }

    function Of(id: Id): Int32 {
      match id
      case Absent => absent
      case Number(_) => number
      case Text(_) => text
    }
  }

  /** `Equals(in JsonRpcId)`: dispatches on the other identifier's tag and
      compares payloads only when the tags agree. */
  function Equals(a: Id, b: Id): (r: bool)
    ensures r <==> a == b
  {
    match b
    case Text(y) => a.Text? && a.s == y
    case Number(y) => a.Number? && a.n == y
    case Absent => a.Absent?
  }

  /** The run-time type of the argument of `Equals(object)`. */
  datatype Boxed = BoxedId(id: Id) | BoxedString(s: string) | BoxedLong(n: Int64) | BoxedOther

  /** `Equals(object)`: a raw string or long is compared as if it were the
      identifier built from it; any other object is unequal. */
  function EqualsObject(a: Id, obj: Boxed): (r: bool)
    ensures obj.BoxedId? ==> (r <==> Equals(a, obj.id))
    ensures obj.BoxedString? ==> (r <==> Equals(a, Text(obj.s)))
    ensures obj.BoxedLong? ==> (r <==> Equals(a, Number(obj.n)))
    ensures obj.BoxedOther? ==> !r
  {
    match obj
    case BoxedId(other) => Equals(a, other)
    case BoxedString(s) => a.Text? && a.s == s
    case BoxedLong(n) => a.Number? && a.n == n
    case BoxedOther => false
  }

  /** `string.CompareOrdinal`: the difference of the first differing
      characters, or of the lengths when one string is a prefix of the other. */
  function CompareOrdinal(a: string, b: string): int {
    if |a| == 0 || |b| == 0 then |a| - |b|
    else if a[0] != b[0] then a[0] as int - b[0] as int
    else CompareOrdinal(a[1..], b[1..])
  }

  /** `CompareTo`: the tags' enumeration values first; within the same tag,
      ordinal order for strings and numeric order for integers. */
  function Compare(rank: TagRank, a: Id, b: Id): int {
    var byTag := CompareInts(rank.Of(a), rank.Of(b));
    if byTag != 0 then byTag
    else
      match (a, b)
      case (Text(x), Text(y)) => CompareOrdinal(x, y)
      case (Number(x), Number(y)) => CompareInts(x, y)
      case _ => 0
  }

  lemma {:induction false} CompareOrdinalZero(a: string, b: string)
    ensures CompareOrdinal(a, b) == 0 <==> a == b
    decreases |a|
  {
    if |a| > 0 && |b| > 0 && a[0] == b[0] {
      CompareOrdinalZero(a[1..], b[1..]);
      assert a == [a[0]] + a[1..];
      assert b == [b[0]] + b[1..];
    }
  }

  lemma {:induction false} CompareOrdinalAntisymmetric(a: string, b: string)
    ensures CompareOrdinal(a, b) == -CompareOrdinal(b, a)
    decreases |a|
  {
    if |a| > 0 && |b| > 0 && a[0] == b[0] {
      CompareOrdinalAntisymmetric(a[1..], b[1..]);
    }
  }

  lemma {:induction false} CompareOrdinalTransitive(a: string, b: string, c: string)
    requires CompareOrdinal(a, b) <= 0 && CompareOrdinal(b, c) <= 0
    ensures CompareOrdinal(a, c) <= 0
    decreases |a|
  {
    if |a| > 0 && |b| > 0 && |c| > 0 && a[0] == b[0] && b[0] == c[0] {
      CompareOrdinalTransitive(a[1..], b[1..], c[1..]);
    }
  }

  /** Every identifier compares equal to itself. */
  lemma CompareReflexive(rank: TagRank, x: Id)
    ensures Compare(rank, x, x) == 0
  {
    if x.Text? {
      CompareOrdinalZero(x.s, x.s);
    }
  }

  /** Swapping the operands negates the comparison. */
  lemma CompareAntisymmetric(rank: TagRank, a: Id, b: Id)
    requires rank.Valid()
    ensures Compare(rank, a, b) == -Compare(rank, b, a)
  {
    if a.Text? && b.Text? {
      CompareOrdinalAntisymmetric(a.s, b.s);
    }
  }

  /** The ordering is transitive; with antisymmetry it is a total preorder. */
  lemma CompareTransitive(rank: TagRank, a: Id, b: Id, c: Id)
    requires rank.Valid()
    requires Compare(rank, a, b) <= 0 && Compare(rank, b, c) <= 0
    ensures Compare(rank, a, c) <= 0
  {
    if a.Text? && b.Text? && c.Text? {
      CompareOrdinalTransitive(a.s, b.s, c.s);
    }
  }

  /** Identifiers of different tags are ordered by their tags alone. */
  lemma CompareOrdersTagsFirst(rank: TagRank, a: Id, b: Id)
    requires rank.Of(a) != rank.Of(b)
    ensures Compare(rank, a, b) < 0 <==> rank.Of(a) < rank.Of(b)
  {
  }

  /** The ordering and equality agree: comparison is zero exactly for equal
      identifiers. */
  lemma CompareZeroIffEquals(rank: TagRank, a: Id, b: Id)
    requires rank.Valid()
    ensures Compare(rank, a, b) == 0 <==> Equals(a, b)
  {
    if a.Text? && b.Text? {
      CompareOrdinalZero(a.s, b.s);
    }
  }

  /** The hash functions of the parts `GetHashCode` combines; their concrete
      values (string hashing is randomized per process) are not modelled. */
  datatype Hashers = Hashers(tag: Int32 -> bv32, long: Int64 -> bv32, str: string -> bv32)

  /** `GetHashCode`: the tag's hash combined by exclusive or with the
      payload's hash; an absent identifier hashes as its tag alone. */
  function HashCode(rank: TagRank, h: Hashers, id: Id): bv32 {
    match id
    case Text(s) => h.tag(rank.Of(id)) ^ h.str(s)
    case Number(n) => h.tag(rank.Of(id)) ^ h.long(n)
    case Absent => h.tag(rank.Of(id))
  }

  /** Equal identifiers have equal hash codes, whatever the part hashes are. */
  lemma HashConsistentWithEquals(rank: TagRank, h: Hashers, a: Id, b: Id)
    requires Equals(a, b)
    ensures HashCode(rank, h, a) == HashCode(rank, h, b)
  {
  }

  /** `ToString`: the string verbatim, the integer in invariant decimal form,
      and the empty string for an absent identifier. */
  function ToString(id: Id): (s: string)
    ensures id.Text? ==> s == id.s
    ensures id.Absent? ==> s == ""
    ensures id.Number? ==> ParseDecimal(s) == Some(id.n as int) && Canonical(s)
  {
    match id
    case Text(s) => s
    case Number(n) => IntDecimalRoundTrip(n); IntToDecimal(n)
    case Absent => ""
  }

  /** Distinct integer identifiers render differently. */
  lemma ToStringInjectiveOnNumbers(a: Int64, b: Int64)
    requires ToString(Number(a)) == ToString(Number(b))
    ensures a == b
  {
    IntToDecimalInjective(a, b);
  }

  /** The `InvalidCastException` of a narrowing cast, naming the target type. */
  datatype CastError = InvalidCast(target: string)

  /** `explicit operator long`. */
  function ToLong(id: Id): (r: Result<Int64, CastError>)
    ensures r.Ok? <==> id.Number?
    ensures r.Ok? ==> id == Number(r.value)
    ensures r.Err? ==> r.error == InvalidCast("long")
  {
    if !id.Number? then Err(InvalidCast("long")) else Ok(id.n)
  }

  /** `explicit operator string`. */
  function ToStr(id: Id): (r: Result<string, CastError>)
    ensures r.Ok? <==> id.Text?
    ensures r.Ok? ==> id == Text(r.value)
    ensures r.Err? ==> r.error == InvalidCast("string")
  {
    if !id.Text? then Err(InvalidCast("string")) else Ok(id.s)
  }

  /** Constructing an identifier from a value and casting it back gives the
      value; casting to the other type fails. */
  lemma CastRoundTrip(v: Int64, t: string)
    ensures ToLong(Number(v)) == Ok(v) && ToStr(Number(v)).Err?
    ensures ToStr(Text(t)) == Ok(t) && ToLong(Text(t)).Err?
    ensures ToLong(Absent).Err? && ToStr(Absent).Err?
  {
  }
}

=== FILE: json.dfy ===
/** The already-parsed JSON tree the serializer works on (the JToken family),
    restricted to what the codec inspects. */
module JsonValues {
  import opened Numerics

  /** A JSON value. Integers are those the parser hands over as `long`;
      object members are keyed by name. */
  datatype Json =
    | Null
    | Bool(b: bool)
    | Int(i: Int64)
    | Str(s: string)
    | Arr(elems: seq<Json>)
    | Obj(fields: map<string, Json>)

  /** `"jsonrpc": "2.0"`, the protocol version token. */
  const ProtocolVersion: Json := Str("2.0")
}

=== FILE: numerics.dfy ===
/** Fixed-width integers of the CLR and the invariant-culture decimal
    rendering of integers (`long.ToString(CultureInfo.InvariantCulture)`). */
module Numerics {
  import opened Wrappers

  const INT64_MIN: int := -0x8000_0000_0000_0000
  const INT64_MAX: int := 0x7FFF_FFFF_FFFF_FFFF

  /** `long` */
  type Int64 = x: int | INT64_MIN <= x <= INT64_MAX

  /** `int` */
  type Int32 = x: int | -0x8000_0000 <= x <= 0x7FFF_FFFF

  /** `long.CompareTo` and `int.CompareTo`: -1, 0 or 1. */
  function CompareInts(a: int, b: int): (r: int)
    ensures -1 <= r <= 1
    ensures r < 0 <==> a < b
    ensures r == 0 <==> a == b
  {
    if a < b then -1 else if a > b then 1 else 0
  }

  predicate IsDigit(c: char) {
    '0' <= c <= '9'
  }

  predicate AllDigits(s: string) {
    forall i | 0 <= i < |s| :: IsDigit(s[i])
  }

  function Digit(d: nat): (c: char)
    requires d < 10
  {
    (48 + d) as char
  }

  function DigitValue(c: char): nat
    requires IsDigit(c)
  {
    c as int - '0' as int
  }

  /** Decimal digits of a natural number, most significant first, no leading zero. */
  function NatToDecimal(n: nat): string
    decreases n
  {
    if n < 10 then [Digit(n)] else NatToDecimal(n / 10) + [Digit(n % 10)]
  }

  /** Invariant-culture rendering: an optional '-' followed by the digits of |n|. */
  function IntToDecimal(n: int): string {
    if n < 0 then "-" + NatToDecimal(-n) else NatToDecimal(n)
  }

  /** Value of a string of decimal digits, read most significant first. */
  function DigitsValue(s: string): nat
    requires AllDigits(s)
  {
    if |s| == 0 then 0 else DigitsValue(s[..|s| - 1]) * 10 + DigitValue(s[|s| - 1])
  }

  /** Reads what `IntToDecimal` writes: an optional '-' and at least one digit. */
  function ParseDecimal(s: string): Option<int> {
    if |s| > 0 && s[0] == '-' then
      if |s| > 1 && AllDigits(s[1..]) then Some(-(DigitsValue(s[1..]) as int)) else None
    else if |s| > 0 && AllDigits(s) then Some(DigitsValue(s) as int)
    else None
  }

  /** The rendering of a natural number is a non-empty digit string without a
      superfluous leading zero, and reading it back gives the number. */
  lemma {:induction false} NatToDecimalRoundTrip(n: nat)
    ensures |NatToDecimal(n)| > 0
    ensures AllDigits(NatToDecimal(n))
    ensures NatToDecimal(n)[0] == '0' ==> n == 0
    ensures DigitsValue(NatToDecimal(n)) == n
    decreases n
  {
    if n >= 10 {
      NatToDecimalRoundTrip(n / 10);
      var s := NatToDecimal(n / 10);
      var t := s + [Digit(n % 10)];
      assert t[..|t| - 1] == s;
      assert DigitValue(Digit(n % 10)) == n % 10;
    } else {
      assert DigitValue(Digit(n)) == n;
    }
  }

  /** A rendering with no superfluous leading zero and no negative zero. */
  predicate Canonical(s: string) {
    && |s| > 0
    && (s[0] == '-' ==> |s| > 1 && s[1] != '0')
    && (s[0] == '0' ==> |s| == 1)
  }

  /** Parsing inverts the invariant-culture rendering of every integer, and the
      rendering is canonical. */
  lemma IntDecimalRoundTrip(n: int)
    ensures ParseDecimal(IntToDecimal(n)) == Some(n)
    ensures Canonical(IntToDecimal(n))
  {
    if n < 0 {
      NatToDecimalRoundTrip(-n);
      var s := "-" + NatToDecimal(-n);
      assert s[1..] == NatToDecimal(-n);
    } else {
      NatToDecimalRoundTrip(n);
    }
  }

  /** Distinct integers render to distinct text. */
  lemma IntToDecimalInjective(a: int, b: int)
    requires IntToDecimal(a) == IntToDecimal(b)
    ensures a == b
  {
    IntDecimalRoundTrip(a);
    IntDecimalRoundTrip(b);
  }
}

=== FILE: protocol.dfy ===
/** The vocabulary the serializer shares with its callers: the exception
    kinds and how a failure is promoted to a per-item slot, the batch result,
    the type schema, the projection between JSON trees and objects, the
    identifier-to-method bindings, and the response record. */
module Protocol {
  import opened Wrappers
  import opened Numerics
  import opened JsonValues
  import opened Ids

  /** `JsonRpcExceptionType`. */
  datatype ErrorKind = ParseError | InvalidMessage | InvalidMethod | GenericError

  /** `JsonRpcException`: a kind and a message. */
  datatype RpcException = RpcException(kind: ErrorKind, message: string)

  /** Why a call, or the decoding of one item, stopped: a `JsonRpcException`,
      or an exception of another type, thrown by code that is not part of
      this model, whose details are left unspecified. */
  datatype Fault = Raised(ex: RpcException) | Unspecified(reason: string)

  function Fail(kind: ErrorKind, message: string): Fault {
    Raised(RpcException(kind, message))
  }

  /** True when a result failed with a `JsonRpcException` of the given kind. */
  predicate FailsWith<T>(r: Result<T, Fault>, kind: ErrorKind) {
    r.Err? && r.error.Raised? && r.error.ex.kind == kind
  }

  /** A fault the per-item `catch ... when (e.Type != GenericError)` does not
      catch: a generic error, or an exception that is not a `JsonRpcException`. */
  predicate IsFatal(f: Fault) {
    f.Unspecified? || f.ex.kind == GenericError
  }

  /** `JsonRpcMessageInfo`: one slot of a decoded call, holding either the
      message or the exception that its decoding raised. */
  datatype Slot<T> = Message(msg: T) | Failed(ex: RpcException)

  /** `JsonRpcDataInfo`: no message at all, a single message, or a batch. */
  datatype DataInfo<T> = NoMessages | Single(item: Slot<T>) | BatchOf(items: seq<Slot<T>>)

  /** The per-item failure rule: success fills the slot with the message, a
      non-fatal exception is captured in the slot, and a fatal fault aborts. */
  function Promote<T>(r: Result<T, Fault>): (p: Result<Slot<T>, Fault>)
    ensures p.Err? <==> r.Err? && IsFatal(r.error)
    ensures p.Err? ==> p.error == r.error
    ensures p.Ok? ==> (p.value.Message? <==> r.Ok?)
    ensures p.Ok? && r.Ok? ==> p.value.msg == r.value
    ensures p.Ok? && r.Err? ==> r.error.Raised? && p.value.ex == r.error.ex && p.value.ex.kind != GenericError
  {
    match r
    case Ok(m) => Ok(Message(m))
    case Err(f) => if IsFatal(f) then Err(f) else Ok(Failed(f.ex))
  }

  /** A CLR type the schema binds a method's parameters, result or error data
      to. */
  datatype TypeTag = TypeTag(name: string)

  /** `JsonRpcSchema`: the supported method names and, per method, the bound
      types; a binding to `None` is a null type reference. */
  datatype Schema = Schema(
    supportedMethods: set<string>,
    parameterTypes: map<string, Option<TypeTag>>,
    resultTypes: map<string, Option<TypeTag>>,
    errorDataTypes: map<string, Option<TypeTag>>,
    errorDataTypeGeneric: Option<TypeTag>)

  /** The projection between JSON trees and CLR objects done by the JSON
      library (`ToObject` / `FromObject`), with a non-null object represented
      by its JSON form. The outer `None` of either is a `JsonException`; the
      inner `None` of `toObject` is a null object. */
  datatype Converters = Converters(
    toObject: (Json, TypeTag) -> Option<Option<Json>>,
    fromObject: Json -> Option<Json>)

  /** `IJsonRpcBindingsProvider`: the method name recorded for a request
      identifier; a binding to `None` is a null method name. */
  type Bindings = map<Id, Option<string>>

  /** A serializer instance: the schema (absent for the parameterless
      constructor) and the projection it uses. */
  datatype SerializerConfig = SerializerConfig(schema: Option<Schema>, conv: Converters)

  /** `JsonRpcError`. */
  datatype ErrorObject = ErrorObject(code: Int64, message: string, data: Option<Json>)

  /** `JsonRpcResponse`: the identifier, the result object and the error
      object, each `None` when the reference is null. */
  datatype Response = Response(id: Id, result: Option<Json>, error: Option<ErrorObject>)
}

=== FILE: requests.dfy ===
/** The request record (`JsonRpcRequest`): its public constructors and the
    `HasParams`, `IsNotification` and `IsSystem` predicates. */
module Requests {
  import opened Wrappers
  import opened JsonValues
  import opened Ids
  import opened Numerics

  /** A request: the method name, the identifier (`Absent` for a
      notification) and the parameters object, if any. A parameters object is
      represented by the JSON tree it was projected from or will be projected
      to. */
  datatype Request = Request(methodName: string, id: Id, params: Option<Json>)

  /** `HasParams`: the parameters reference is not null. */
  predicate HasParams(r: Request) {
    r.params.Some?
  }

  /** `IsNotification`: the identifier type is the null type. */
  predicate IsNotification(r: Request) {
    r.id.Absent?
  }

  /** `string.StartsWith(prefix, StringComparison.Ordinal)`. */
  predicate StartsWithOrdinal(s: string, prefix: string) {
    |prefix| <= |s| && s[..|prefix|] == prefix
  }

  const SystemPrefix: string := "rpc."

  /** `IsSystem`: the method name is reserved by the protocol. */
  predicate IsSystem(r: Request) {
    StartsWithOrdinal(r.methodName, SystemPrefix)
  }

  /** How a constructor overload receives its parameters: the overload without
      a parameters argument, or one that is passed a possibly null reference. */
  datatype ParamsArg = NoParams | ParamsGiven(value: Option<Json>)

  /** The argument exceptions the constructors throw, naming the argument. */
  datatype ArgumentError = ArgumentException(param: string) | ArgumentNullException(param: string)

  /** The six public constructors: `(method)`, `(method, params)`,
      `(method, long id)`, `(method, long id, params)`, `(method, string id)`
      and `(method, string id, params)`, selected by `id` (`Absent` for the
      overloads without one) and `params`. The method is validated before the
      parameters. */
  function Create(methodName: string, id: Id, params: ParamsArg): (r: Result<Request, ArgumentError>)
    ensures |methodName| == 0 ==> r == Err(ArgumentException("method"))
    ensures |methodName| > 0 && params == ParamsGiven(None) ==> r == Err(ArgumentNullException("params"))
    ensures r.Ok? <==> |methodName| > 0 && params != ParamsGiven(None)
    ensures r.Ok? ==> r.value.methodName == methodName && r.value.id == id
    ensures r.Ok? ==> (HasParams(r.value) <==> params.ParamsGiven?)
    ensures r.Ok? && params.ParamsGiven? ==> r.value.params == params.value
  {
    if |methodName| == 0 then Err(ArgumentException("method"))
    else if params.ParamsGiven? && params.value.None? then Err(ArgumentNullException("params"))
    else Ok(Request(methodName, id, if params.ParamsGiven? then params.value else None))
  }

  /** A request built without an identifier is a notification; one built with
      a long or string identifier is not and keeps that identifier. */
  lemma CreatedNotification(methodName: string, params: ParamsArg, v: Int64, t: string)
    requires |methodName| > 0 && params != ParamsGiven(None)
    ensures IsNotification(Create(methodName, Absent, params).value)
    ensures !IsNotification(Create(methodName, Number(v), params).value)
    ensures ToLong(Create(methodName, Number(v), params).value.id) == Ok(v)
    ensures !IsNotification(Create(methodName, Text(t), params).value)
    ensures ToStr(Create(methodName, Text(t), params).value.id) == Ok(t)
  {
  }

  /** Every constructor refuses an empty method name. */
  lemma EmptyMethodRejected(id: Id, params: ParamsArg)
    ensures Create("", id, params) == Err(ArgumentException("method"))
  {
  }

  /** `IsSystem` holds exactly for the names that are "rpc." followed by
      anything. */
  lemma IsSystemIff(r: Request)
    ensures IsSystem(r) <==> exists rest: string :: r.methodName == SystemPrefix + rest
  {
    if IsSystem(r) {
      var rest := r.methodName[|SystemPrefix|..];
      assert r.methodName == SystemPrefix + rest;
    }
  }

  /** "rpc.m" is a system method; "m" and "rpc" are not. */
  lemma IsSystemExamples(id: Id, params: Option<Json>)
    ensures IsSystem(Request("rpc.m", id, params))
    ensures !IsSystem(Request("m", id, params))
    ensures !IsSystem(Request("rpc", id, params))
  {
    assert "rpc.m"[..4] == SystemPrefix;
  }
}

=== FILE: serializer.dfy ===
/** `JsonRpcSerializer`'s public operations: deserializing a JSON text to the
    information about one request or response or a batch of them, and
    serializing one message or a collection of them to a JSON text. */
module Serializer {
  import opened Wrappers
  import opened Numerics
  import opened JsonValues
  import opened Ids
  import opened Protocol
  import opened Requests
  import opened Duplicates
  import opened Batch
  import opened Codec

  /** The JSON text layer of the JSON library: `parse` is `JToken.ReadFrom`
      and `render` is `JToken.ToString`; `None` is a `JsonException`. */
  datatype TextCodec = TextCodec(parse: string -> Option<Json>, render: Json -> Option<string>)

  /** Rendering always succeeds with a non-empty text, and parsing reads back
      what was rendered. */
  ghost predicate Faithful(text: TextCodec) {
    forall t: Json ::
      text.render(t).Some? && |text.render(t).value| > 0 && text.parse(text.render(t).value) == Some(t)
  }

  const ParseFailure: Fault := Fail(ParseError, "JSON string parsing error")

  const CompositionError: Fault := Fail(GenericError, "JSON string composition error")

  const EmptyCollection: Fault := Fail(GenericError, "The batch is empty")

  /** `ConvertTokenToString`. */
  function Render(text: TextCodec, tree: Json): (r: Result<string, Fault>)
    ensures r.Ok? <==> text.render(tree).Some?
    ensures r.Ok? ==> Some(r.value) == text.render(tree)
    ensures r.Err? ==> r.error == CompositionError
  {
    match text.render(tree)
    case None => Err(CompositionError)
    case Some(s) => Ok(s)
  }

  const RequestKey: Request -> Id := (req: Request) => req.id

  const ResponseKey: Response -> Id := (resp: Response) => resp.id

  function RequestDecoder(ser: SerializerConfig): map<string, Json> -> Result<Request, Fault> {
    (fields: map<string, Json>) => DecodeRequest(ser, fields)
  }

  function ResponseDecoder(ser: SerializerConfig, bindings: Bindings): map<string, Json> -> Result<Response, Fault> {
    (fields: map<string, Json>) => DecodeResponse(ser, bindings, fields)
  }

  function RequestEncoder(conv: Converters): Request -> Result<Json, Fault> {
    (req: Request) => EncodeRequest(conv, req)
  }

  function ResponseEncoder(conv: Converters): Response -> Result<Json, Fault> {
    (resp: Response) => EncodeResponse(conv, resp)
  }

  /** What any successful deserialization returns: a batch is non-empty, no
      two of its messages carry colliding identifiers, and the failures it
      captured are never generic errors. */
  predicate Delivered<T>(info: DataInfo<T>, idOf: T -> Id) {
    && (info.Single? && info.item.Failed? ==> info.item.ex.kind != GenericError)
    && (info.BatchOf? ==>
          && |info.items| > 0
          && Unique(MessageIds(info.items, idOf))
          && forall k | 0 <= k < |info.items| :: info.items[k].Failed? ==> info.items[k].ex.kind != GenericError)
  }

  /** The guarantees of `DecodeData` on a parsed tree, restated for the
      returned information. */
  lemma DecodeDataDelivers<T>(root: Json, decode: map<string, Json> -> Result<T, Fault>, idOf: T -> Id)
    requires DecodeData(root, decode, idOf).Ok?
    ensures Delivered(DecodeData(root, decode, idOf).value, idOf)
    ensures !DecodeData(root, decode, idOf).value.NoMessages?
  {
    var info := DecodeData(root, decode, idOf).value;
    if info.BatchOf? {
      assert AllCaptured(root.elems, decode);
      assert info.items == Outcomes(root.elems, decode);
      forall k | 0 <= k < |info.items|
        ensures info.items[k].Failed? ==> info.items[k].ex.kind != GenericError
      {
        assert ItemOutcome(root.elems[k], decode) == Ok(info.items[k]);
      }
    }
  }

  /** `DeserializeRequestsData`: parse the text, then decode an object as one
      request and a non-empty array as a batch. */
  function DeserializeRequestsData(ser: SerializerConfig, text: TextCodec, json: string)
    : (r: Result<DataInfo<Request>, Fault>)
    ensures FailsWith(r, ParseError) <==> text.parse(json).None?
    ensures text.parse(json).None? ==> r == Err(ParseFailure)
    ensures r.Ok? ==> Delivered(r.value, RequestKey) && !r.value.NoMessages?
    ensures ser.schema.None? && text.parse(json).Some? && text.parse(json).value.Obj? ==> r == Err(NoSchema)
    ensures text.parse(json).Some? ==> r == DecodeData(text.parse(json).value, RequestDecoder(ser), RequestKey)
  {
    match text.parse(json)
    case None => Err(ParseFailure)
    case Some(root) =>
      var r := DecodeData(root, RequestDecoder(ser), RequestKey);
      if r.Ok? then DecodeDataDelivers(root, RequestDecoder(ser), RequestKey); r else r
  }

  /** `DeserializeResponsesData`: the empty text is the empty response;
      otherwise as for requests, with the bindings resolving result types. */
  function DeserializeResponsesData(ser: SerializerConfig, text: TextCodec, bindings: Bindings, json: string)
    : (r: Result<DataInfo<Response>, Fault>)
    ensures |json| == 0 ==> r == Ok(NoMessages)
    ensures FailsWith(r, ParseError) <==> |json| > 0 && text.parse(json).None?
    ensures r.Ok? ==> Delivered(r.value, ResponseKey)
    ensures r.Ok? && r.value.NoMessages? ==> |json| == 0
    ensures |json| > 0 && text.parse(json).Some? ==>
              r == DecodeData(text.parse(json).value, ResponseDecoder(ser, bindings), ResponseKey)
  {
    if |json| == 0 then Ok(NoMessages)
    else
      match text.parse(json)
      case None => Err(ParseFailure)
      case Some(root) =>
        var r := DecodeData(root, ResponseDecoder(ser, bindings), ResponseKey);
        if r.Ok? then DecodeDataDelivers(root, ResponseDecoder(ser, bindings), ResponseKey); r else r
  }

  /** `SerializeRequest`. */
  function SerializeRequest(conv: Converters, text: TextCodec, req: Request): (r: Result<string, Fault>)
    ensures r.Ok? <==> EncodeRequest(conv, req).Ok? && text.render(EncodeRequest(conv, req).value).Some?
    ensures r.Ok? ==> text.render(EncodeRequest(conv, req).value) == Some(r.value)
    ensures r.Err? ==> FailsWith(r, GenericError)
  {
    var tree :- EncodeRequest(conv, req);
    Render(text, tree)
  }

  /** `SerializeResponse`. */
  function SerializeResponse(conv: Converters, text: TextCodec, resp: Response): (r: Result<string, Fault>)
    ensures r.Ok? <==> EncodeResponse(conv, resp).Ok? && text.render(EncodeResponse(conv, resp).value).Some?
    ensures r.Ok? ==> text.render(EncodeResponse(conv, resp).value) == Some(r.value)
    ensures r.Err? ==> FailsWith(r, GenericError) || r.error.Unspecified?
    ensures (r.Err? && r.error.Unspecified?) <==> resp.result.None? && resp.error.None?
  {
    var tree :- EncodeResponse(conv, resp);
    Render(text, tree)
  }

  /** `SerializeRequests`: an empty collection is refused; otherwise the
      items are encoded in order, refusing a null item and a repeated
      identifier, and the array is rendered. */
  function SerializeRequests(conv: Converters, text: TextCodec, reqs: seq<Option<Request>>)
    : (r: Result<string, Fault>)
    ensures |reqs| == 0 ==> r == Err(EmptyCollection)
    ensures |reqs| > 0 ==>
              (r.Ok? <==> AllEncodable(reqs, RequestEncoder(conv)) && Unique(ItemIds(reqs, RequestKey)) &&
                          text.render(Arr(Encoded(reqs, RequestEncoder(conv)))).Some?)
    ensures r.Ok? ==> text.render(Arr(Encoded(reqs, RequestEncoder(conv)))) == Some(r.value)
    ensures r.Err? ==> FailsWith(r, GenericError)
  {
    if |reqs| == 0 then Err(EmptyCollection)
    else
      EncodeItemsSpec(reqs, RequestEncoder(conv), RequestKey);
      if EncodeItems(reqs, RequestEncoder(conv), RequestKey).Err? then
        RequestFaultsGeneric(conv, reqs);
        Err(EncodeItems(reqs, RequestEncoder(conv), RequestKey).error)
      else
        Render(text, Arr(EncodeItems(reqs, RequestEncoder(conv), RequestKey).value))
  }

  /** Every fault of encoding a collection of requests is a generic error: a
      null item, a repeated identifier, or a failed conversion. */
  lemma RequestFaultsGeneric(conv: Converters, reqs: seq<Option<Request>>)
    requires EncodeItems(reqs, RequestEncoder(conv), RequestKey).Err?
    ensures FailsWith(EncodeItems(reqs, RequestEncoder(conv), RequestKey), GenericError)
  {
    var f := EncodeItems(reqs, RequestEncoder(conv), RequestKey).error;
    EncodeFromFault(reqs, RequestEncoder(conv), RequestKey, 0, NothingSeen, []);
    var k :| 0 <= k < |reqs| && EncodeFault(reqs, RequestEncoder(conv), RequestKey, 0, NothingSeen, k, f);
    if reqs[k].Some? && RequestEncoder(conv)(reqs[k].value) == Err(f) {
      assert EncodeRequest(conv, reqs[k].value) == Err(f);
    }
  }

  /** `SerializeResponses`: an empty collection is the empty text; otherwise
      as for requests. */
  function SerializeResponses(conv: Converters, text: TextCodec, resps: seq<Option<Response>>)
    : (r: Result<string, Fault>)
    ensures |resps| == 0 ==> r == Ok("")
    ensures |resps| > 0 ==>
              (r.Ok? <==> AllEncodable(resps, ResponseEncoder(conv)) && Unique(ItemIds(resps, ResponseKey)) &&
                          text.render(Arr(Encoded(resps, ResponseEncoder(conv)))).Some?)
    ensures r.Ok? && |resps| > 0 ==> text.render(Arr(Encoded(resps, ResponseEncoder(conv)))) == Some(r.value)
    ensures r.Err? ==> FailsWith(r, GenericError) || r.error.Unspecified?
    ensures r.Err? && r.error.Unspecified? ==>
              exists k | 0 <= k < |resps| :: resps[k].Some? && resps[k].value.result.None? && resps[k].value.error.None?
  {
    if |resps| == 0 then Ok("")
    else
      EncodeItemsSpec(resps, ResponseEncoder(conv), ResponseKey);
      if EncodeItems(resps, ResponseEncoder(conv), ResponseKey).Err? then
        ResponseFaultsGeneric(conv, resps);
        Err(EncodeItems(resps, ResponseEncoder(conv), ResponseKey).error)
      else
        Render(text, Arr(EncodeItems(resps, ResponseEncoder(conv), ResponseKey).value))
  }

  /** Every fault of encoding a collection of responses is a generic error,
      except the null error object of a response that has no result. */
  lemma ResponseFaultsGeneric(conv: Converters, resps: seq<Option<Response>>)
    requires EncodeItems(resps, ResponseEncoder(conv), ResponseKey).Err?
    ensures FailsWith(EncodeItems(resps, ResponseEncoder(conv), ResponseKey), GenericError) ||
            EncodeItems(resps, ResponseEncoder(conv), ResponseKey).error.Unspecified?
    ensures EncodeItems(resps, ResponseEncoder(conv), ResponseKey).error.Unspecified? ==>
              exists k | 0 <= k < |resps| :: resps[k].Some? && resps[k].value.result.None? && resps[k].value.error.None?
  {
    var f := EncodeItems(resps, ResponseEncoder(conv), ResponseKey).error;
    EncodeFromFault(resps, ResponseEncoder(conv), ResponseKey, 0, NothingSeen, []);
    var k :| 0 <= k < |resps| && EncodeFault(resps, ResponseEncoder(conv), ResponseKey, 0, NothingSeen, k, f);
    if resps[k].Some? && ResponseEncoder(conv)(resps[k].value) == Err(f) {
      assert EncodeResponse(conv, resps[k].value) == Err(f);
    }
  }

  /** A request that `RequestRoundTrip` applies to. */
  predicate RoundTrips(ser: SerializerConfig, req: Request) {
    ParamsRoundTrip(ser, req) && |req.methodName| > 0 && req.methodName in ser.schema.value.supportedMethods
  }

  /** A non-empty collection of requests with distinct identifiers, each of
      which survives its own round trip, is read back as a batch holding
      every request, in order. */
  lemma RequestsRoundTrip(ser: SerializerConfig, text: TextCodec, reqs: seq<Option<Request>>)
    requires Faithful(text)
    requires |reqs| > 0 && AllPresent(reqs) && Unique(ItemIds(reqs, RequestKey))
    requires forall k | 0 <= k < |reqs| :: RoundTrips(ser, reqs[k].value)
    ensures SerializeRequests(ser.conv, text, reqs).Ok?
    ensures DeserializeRequestsData(ser, text, SerializeRequests(ser.conv, text, reqs).value) == Ok(BatchOf(AsMessages(reqs)))
  {
    var enc := RequestEncoder(ser.conv);
    var dec := RequestDecoder(ser);
    RequestsInvert(ser, reqs);
    DecodeDataOfEncoded(reqs, enc, dec, RequestKey);
    var tree := Arr(Encoded(reqs, enc));
    assert text.render(tree).Some? && text.parse(text.render(tree).value) == Some(tree);
  }

  /** Each request of the collection encodes to an object that decodes back
      to it. */
  lemma RequestsInvert(ser: SerializerConfig, reqs: seq<Option<Request>>)
    requires AllPresent(reqs)
    requires forall k | 0 <= k < |reqs| :: RoundTrips(ser, reqs[k].value)
    ensures AllEncodable(reqs, RequestEncoder(ser.conv))
    ensures forall k | 0 <= k < |reqs| ::
              RequestEncoder(ser.conv)(reqs[k].value).value.Obj? &&
              RequestDecoder(ser)(RequestEncoder(ser.conv)(reqs[k].value).value.fields) == Ok(reqs[k].value)
  {
    forall k | 0 <= k < |reqs|
      ensures RequestEncoder(ser.conv)(reqs[k].value).Ok?
      ensures RequestEncoder(ser.conv)(reqs[k].value).value.Obj?
      ensures RequestDecoder(ser)(RequestEncoder(ser.conv)(reqs[k].value).value.fields) == Ok(reqs[k].value)
    {
      RequestRoundTrip(ser, reqs[k].value);
    }
  }

  /** A response with a result whose identifier is bound, and whose result
      survives the projection both ways, is read back unchanged. */
  lemma ResponseTextRoundTrip(ser: SerializerConfig, text: TextCodec, bindings: Bindings, resp: Response)
    requires Faithful(text)
    requires PayloadRoundTrip(ser, bindings, resp) && ExactlyOne(resp)
    ensures SerializeResponse(ser.conv, text, resp).Ok?
    ensures DeserializeResponsesData(ser, text, bindings, SerializeResponse(ser.conv, text, resp).value) ==
              Ok(Single(Message(resp)))
  {
    ResponseRoundTrip(ser, bindings, resp);
    var tree := EncodeResponse(ser.conv, resp).value;
    assert text.render(tree).Some? && |text.render(tree).value| > 0;
  }

  /** A request object with method "m" and, when given, the identifier. */
  function RequestObject(id: Option<Json>): Json {
    var fields := map["jsonrpc" := ProtocolVersion, "method" := Str("m")];
    if id.Some? then Obj(fields["id" := id.value]) else Obj(fields)
  }

  /** A batch of two requests that share the identifier 1 is refused as a
      whole, naming the identifier. */
  lemma DuplicateRequestIdsRejected(ser: SerializerConfig, text: TextCodec, json: string)
    requires ser.schema.Some? && "m" in ser.schema.value.supportedMethods
    requires text.parse(json) == Some(Arr([RequestObject(Some(Int(1))), RequestObject(Some(Int(1)))]))
    ensures DeserializeRequestsData(ser, text, json) == Err(DuplicateFault(InvalidMessage, Number(1)))
  {
    var elems := [RequestObject(Some(Int(1))), RequestObject(Some(Int(1)))];
    var dec := RequestDecoder(ser);
    var slot := Message(Request("m", Number(1), None));
    assert dec(RequestObject(Some(Int(1))).fields) == Ok(Request("m", Number(1), None)) by {
      IdentifiedRequestDecodes(ser);
    }
    assert ItemOutcome(elems[0], dec) == Ok(slot);
    assert ItemOutcome(elems[1], dec) == Ok(slot);
    assert RequestKey(slot.msg) == Number(1);
    var seen := Track(NothingSeen, Number(1)).value;
    assert Track(seen, Number(1)).None?;
    assert DecodeFrom(elems, dec, RequestKey, 1, seen, [slot]) == Err(DuplicateFault(InvalidMessage, Number(1)));
    assert DecodeFrom(elems, dec, RequestKey, 0, NothingSeen, []) == Err(DuplicateFault(InvalidMessage, Number(1)));
  }

  lemma IdentifiedRequestDecodes(ser: SerializerConfig)
    requires ser.schema.Some? && "m" in ser.schema.value.supportedMethods
    ensures DecodeRequest(ser, RequestObject(Some(Int(1))).fields) == Ok(Request("m", Number(1), None))
  {
  }

  /** Notifications carry no identifier, so a batch may repeat them. */
  lemma RepeatedNotificationsAccepted(ser: SerializerConfig, text: TextCodec, json: string)
    requires ser.schema.Some? && "m" in ser.schema.value.supportedMethods
    requires text.parse(json) == Some(Arr([RequestObject(None), RequestObject(None)]))
    ensures DeserializeRequestsData(ser, text, json) ==
              Ok(BatchOf([Message(Request("m", Absent, None)), Message(Request("m", Absent, None))]))
  {
    var elems := [RequestObject(None), RequestObject(None)];
    var dec := RequestDecoder(ser);
    var slot := Message(Request("m", Absent, None));
    assert dec(RequestObject(None).fields) == Ok(Request("m", Absent, None)) by {
      NotificationDecodes(ser);
    }
    assert ItemOutcome(elems[0], dec) == Ok(slot);
    assert ItemOutcome(elems[1], dec) == Ok(slot);
    assert Track(NothingSeen, Absent) == Some(NothingSeen);
    assert RequestKey(slot.msg) == Absent;
    assert [slot] + [slot] == [slot, slot] && [] + [slot] == [slot];
    assert DecodeFrom(elems, dec, RequestKey, 2, NothingSeen, [slot, slot]) == Ok([slot, slot]);
    assert DecodeFrom(elems, dec, RequestKey, 1, NothingSeen, [slot]) == Ok([slot, slot]);
    assert DecodeFrom(elems, dec, RequestKey, 0, NothingSeen, []) == Ok([slot, slot]);
  }

  lemma NotificationDecodes(ser: SerializerConfig)
    requires ser.schema.Some? && "m" in ser.schema.value.supportedMethods
    ensures DecodeRequest(ser, RequestObject(None).fields) == Ok(Request("m", Absent, None))
  {
  }

  /** A request whose identifier is `null` is captured as an invalid message
      rather than read as a notification. */
  lemma NullRequestIdCaptured(ser: SerializerConfig, text: TextCodec, json: string)
    requires ser.schema.Some? && "m" in ser.schema.value.supportedMethods
    requires text.parse(json) == Some(RequestObject(Some(Null)))
    ensures DeserializeRequestsData(ser, text, json) ==
              Ok(Single(Failed(RpcException(InvalidMessage, "The request has the identifier property with invalid type"))))
  {
    var fields := RequestObject(Some(Null)).fields;
    assert HasProtocol(fields) && HasMethodName(fields) && fields["method"].s == "m";
    assert RequestId(fields) == Err(Fail(InvalidMessage, "The request has the identifier property with invalid type"));
  }

  /** A response whose `"result": null` the projection turns into a null
      object is decoded with neither a result nor an error, and that response
      cannot be serialized again. */
  lemma NullResultNotReserialized(ser: SerializerConfig, bindings: Bindings, tag: TypeTag)
    requires ser.schema.Some?
    requires Number(1) in bindings && bindings[Number(1)] == Some("m")
    requires "m" in ser.schema.value.resultTypes && ser.schema.value.resultTypes["m"] == Some(tag)
    requires ser.conv.toObject(Null, tag) == Some(None)
    ensures DecodeResponse(ser, bindings, map["jsonrpc" := ProtocolVersion, "result" := Null, "id" := Int(1)]) ==
              Ok(Response(Number(1), None, None))
    ensures EncodeResponse(ser.conv, Response(Number(1), None, None)).Err?
    ensures EncodeResponse(ser.conv, Response(Number(1), None, None)).error.Unspecified?
  {
    var fields := map["jsonrpc" := ProtocolVersion, "result" := Null, "id" := Int(1)];
    assert HasProtocol(fields) && "error" !in fields;
    assert ResponseId(fields) == Number(1);
    assert ResultTypeFor(ser.schema.value, bindings, Number(1)) == Ok(tag);
    assert DecodeMembers(ser, ser.schema.value, bindings, fields) == Ok(Response(Number(1), None, None));
  }
}

=== FILE: wrappers.dfy ===
/** Failure-compatible wrappers used throughout the model: an optional value
    (the source's nullable references) and a success-or-failure result (the
    source's thrown exceptions, made explicit). */
module Wrappers {

  datatype Option<+T> = None | Some(value: T)

  datatype Result<+T, +E> = Ok(value: T) | Err(error: E) {

    predicate IsFailure() {
      Err?
    }

    function PropagateFailure<U>(): Result<U, E>
      requires Err?
    {
      Err(error)
    }

    function Extract(): T
      requires Ok?
    {
      value
    }
  }
}
